=== FILE: README.md ===
# Test dispatcher bookkeeping, in Dafny

This project models the coordinator of a small continuous-integration system:
the dispatcher in `ci/code/dispatcher.py`. The dispatcher keeps three shared
collections:

- the pool of registered test runners, as a list of host/port records;
- `dispatched_commits`, the runner each commit was handed to;
- `pending_commits`, the commits still waiting for a runner.

It answers four request verbs on a TCP socket: `status`, `register`,
`dispatch` and `results`. Two background loops work on the same collections.
One walks the runner list, pinging runners and evicting those whose ping
fails; the runner after an evicted one is not pinged in that pass. The other hands waiting
commits out again.

The model has four modules:

- `Wrappers`: `Option` and `Result`.
- `Sequences`: Python's `list.remove`, and the subsequence order it keeps.
- `Protocol`: the text side of a request. That is `str.strip`, the header
  pattern `(\w+)(:.+)*` and the handler lookup, `str.split` and `str.join`,
  `int()`, the `host:port` and `commit:length:payload` layouts, the
  receive-buffer arithmetic of a `results` frame, its reassembly from two
  reads, and the payload written to `test_results/`. All of it is pure functions with lemmas.
- `Coordinator`: the class `Dispatcher`. Its fields are `runners`,
  `dispatched`, `pending` and `stored`, the last being the result files by
  commit id. It has one method per request handler except `status`, whose reply
  is given in `Handle`, and one per pass of a background loop.

Runner replies and received bytes are inputs. A reply is either an answer
string or `Unreachable`, which stands for a socket error raised while the
runner is contacted. Ports are checked by the model itself. In a dispatch
pass, `int()` of a non-numeric port (ci/code/dispatcher.py:30) raises
ValueError before the runner is contacted. `dispatch_tests` catches neither
that nor a socket error, so both end the pass with `Raised` at that runner;
`Offers` puts the port check in front of each reply. The liveness sweep is
different: it catches socket errors and evicts the runner, but a non-numeric
port (ci/code/dispatcher.py:140) raises ValueError, which ends
`runner_checker`; the model stops the sweep there with `raised`. A handler either replies with a string or crashes with the
Python exception the code would raise (`Outcome`).

Every method keeps `Valid`: no commit waits twice and none is both waiting
and assigned. `Tracked` is the set of commits that are waiting or assigned.
Where a method's contract states it:

- evicting a runner, a liveness sweep and a redistribution pass leave it
  unchanged;
- a dispatch pass adds the commit exactly when a runner took it.

Registering leaves the assignments and the waiting list untouched. Storing a
result deletes that commit's assignment, so the commit leaves `Tracked`;
`HandleResults` states the new assignments directly. `Handle` states its
effect through the handlers' own predicates.

Python walks a list by index while it is being shortened, so an element is
skipped after each removal. The sweep and redistribution loops keep that
behaviour. The sweep's contract equates the runners pinged and the pool left
with `Walk`, a recursive definition of that index walk. The redistribution's
contract says the commits tried are those at even positions of the waiting
list (`Evens`), and those left waiting are the odd positions before the
point reached and everything after it (`Odds`).

Some behaviour of the code is easy to misread, and the model follows the code:

- there is no `ping` handler, so a `ping` request is an unknown verb;
- results for a commit with no assignment raise KeyError;
- a `dispatch` with no runners registered does not queue the commit;
- dispatching a commit that is already assigned reassigns it.

## Model

| member | source | states |
|---|---|---|
| Sequences.RemoveFirst | ci/code/dispatcher.py:36 | `list.remove`: one element fewer, with exactly one copy of `x` removed from the multiset; the list is unchanged when `x` is absent |
| Sequences.RemoveFirstSubseq | ci/code/dispatcher.py:133 | removing a runner keeps the others in their original relative order |
| Sequences.RemoveFirstAt | ci/code/dispatcher.py:36 | in a list without repeats, removing `s[i]` deletes exactly index `i`, and the element no longer occurs |
| Sequences.RemoveFirstFirst | ci/code/dispatcher.py:133 | the copy removed is the first one: for any index holding `x` with no `x` before it, the result is the list without that index |
| Sequences.RemoveFirstMembers | ci/code/dispatcher.py:35-36 | removing a commit keeps every other commit and adds none |
| Protocol.Strip | ci/code/dispatcher.py:108 | the result is a contiguous slice starting after the leading whitespace; everything outside it is whitespace; it neither starts nor ends with whitespace |
| Protocol.StripTrimmed | ci/code/dispatcher.py:108 | stripping text that has no whitespace at either end leaves it unchanged |
| Protocol.Parse | ci/code/dispatcher.py:111-114 | the pattern fails (answer "Invalid command") exactly when the frame is empty or does not start with a word character |
| Protocol.VerbOf | ci/code/dispatcher.py:100-105 | the handler table: a word finds a handler exactly when it names one of the four verbs `status`, `register`, `dispatch` and `results`, and the verb found has that name |
| Protocol.ParseUnknownVerb | ci/code/dispatcher.py:115-119 | an unknown verb is the maximal leading run of word characters, and no handler has that name |
| Protocol.ParseNoMessage | ci/code/dispatcher.py:115-121 | when a known verb has no group 2, the character after the verb is not a word character, and it is not a ':' followed by a character other than a newline |
| Protocol.ParseRequestShape | ci/code/dispatcher.py:115-121 | a request frame is the verb, ':' and a non-empty, newline-free message that runs to the end of the first line |
| Protocol.Group2 | ci/code/dispatcher.py:55 | group 2 exists exactly when ':' and a non-newline character follow the word; the message is the rest of that line after the ':' |
| Protocol.Group2Of | ci/code/dispatcher.py:55 | group 2 of ':' + message, followed by nothing or a newline, is exactly that message |
| Protocol.ParseRequest | ci/code/dispatcher.py:111-121 | converse of the request case: verb, ':' and a one-line message parse back to exactly that verb and message |
| Protocol.Split | ci/code/dispatcher.py:66 | `str.split` returns at least one piece and no piece contains the delimiter |
| Protocol.SplitCount | ci/code/dispatcher.py:66 | there is one more piece than there are delimiters |
| Protocol.SplitJoin | ci/code/dispatcher.py:66 | joining the pieces with the delimiter gives the original string |
| Protocol.SplitField | ci/code/dispatcher.py:83-84 | a delimiter-free first field is split off on its own, and the rest splits as it would alone |
| Protocol.Join | ci/code/dispatcher.py:95 | joining no parts gives the empty text; otherwise the result starts with the first part, followed by the separator when more parts follow |
| Protocol.JoinSplit | ci/code/dispatcher.py:94-95 | splitting at ':' and joining with a newline replaces every ':' by a newline |
| Protocol.PyInt | ci/code/dispatcher.py:85 | `int()` succeeds only on text whose stripped form ends with a digit, and a negative value comes only from a leading '-' |
| Protocol.PyIntSigned | ci/code/dispatcher.py:85 | a sign, any whitespace, then digits reads as the signed value of the digits: Python 2 accepts whitespace between the sign and the digits |
| Protocol.PyIntShape | ci/code/dispatcher.py:85 | the converse of `PyIntSigned` and `PyIntDecimal`: whatever `int()` accepts is, between its surrounding whitespace, either a plain run of digits read as their value, or a sign followed by whitespace and a non-empty run of digits |
| Protocol.NumeralShapeSigned | ci/code/dispatcher.py:85 | a signed numeral that `int()` accepts is the sign, whitespace and a non-empty run of digits, and reads as the signed value of those digits |
| Protocol.PyIntDecimal | ci/code/dispatcher.py:85 | `int(str(n)) == n` for every integer |
| Protocol.ParseRunner | ci/code/dispatcher.py:66-67 | unpacking succeeds exactly when the message has one ':'; the message is then `host:port`, and neither part contains ':' |
| Protocol.ParseRunnerOf | ci/code/dispatcher.py:66-67 | a `host:port` message without other colons is read back as that runner |
| Protocol.ParseResults | ci/code/dispatcher.py:83-85 | IndexError exactly when there is no ':'; otherwise ValueError on a non-numeric length; on success the message starts with `commit:length`, followed by ':' or its end, and the length is `int()` of its field |
| Protocol.ParseResultsFields | ci/code/dispatcher.py:83-85 | a colon-free commit id and length field, followed by nothing or by ':', give exactly that header with the length `int()` reads; ValueError exactly when `int()` rejects the field |
| Protocol.SplitPrefix | ci/code/dispatcher.py:83-85 | the first two fields of a split sit at the start of the string, separated by the delimiter |
| Protocol.ParseResultsOf | ci/code/dispatcher.py:83-85 | a report header `commit:str(n):payload` is read back as that commit, field and length |
| Protocol.ExtraRequest | ci/code/dispatcher.py:87-89 | no second read exactly when command, commit id, length field, three ':' and the announced payload fit in 1024 bytes; otherwise the read asks for exactly the excess |
| Protocol.ExtraRequestCoversFrame | ci/code/dispatcher.py:86-89 | when the announced length is the payload's length, the second read asks for exactly the part of the frame beyond the 1024-byte first read, and nothing when the frame fits |
| Protocol.FullFrame | ci/code/dispatcher.py:88-89 | the first read is kept as a prefix; nothing is added when no second read is due; what is added neither starts nor ends with whitespace and is no longer than what `recv` returned |
| Protocol.FullFrameReassembles | ci/code/dispatcher.py:86-89 | a report frame longer than the 1024-byte first read, whose two reads have no whitespace at their ends, is reassembled exactly: the stripped first read followed by the second read is the frame sent |
| Protocol.SplitReport | ci/code/dispatcher.py:94 | a report frame splits into the command, the commit id, the length field and the pieces of the payload |
| Protocol.StoredPayload | ci/code/dispatcher.py:94-95 | the stored text contains no ':'; a frame with fewer than three ':' stores the empty text |
| Protocol.StoredPayloadOf | ci/code/dispatcher.py:94-96 | the stored text of a well-formed report is its payload with each ':' turned into a newline |
| Protocol.StoredPayloadVerbatim | ci/code/dispatcher.py:94-96 | a payload without ':' is stored exactly as sent |
| Coordinator.FirstTaker | ci/code/dispatcher.py:28-37 | the pass assigns the first runner answering "OK" after only declines; it raises at the first unreachable runner after only declines; otherwise nobody takes the commit, which happens exactly when every runner declined |
| Coordinator.Dispatcher.FindTaker | ci/code/dispatcher.py:28-37 | the loop over the runners, which changes nothing: it stops with `Raised` at the first runner whose port `int()` rejects or whose contact raises, with `Assigned` at the first that answers "OK", and otherwise reports `NoTaker`; this is `FirstTaker` of the offers |
| Coordinator.FirstTakerAt | ci/code/dispatcher.py:28-37 | once the runners before `i` have declined, runner `i`'s "OK" or socket error decides the pass |
| Coordinator.Evicted | ci/code/dispatcher.py:137-146 | the evicted and the kept runners together are exactly the probed ones |
| Coordinator.EvictedFailed | ci/code/dispatcher.py:142-146 | every probed runner whose ping was not "pong" or raised a socket error is among the evicted |
| Coordinator.EvictedExactly | ci/code/dispatcher.py:142-146 | a runner is among the evicted if and only if one of its pings failed |
| Coordinator.KeptExactly | ci/code/dispatcher.py:142-146 | a runner is among the kept if and only if one of its pings answered "pong" |
| Coordinator.Walk | ci/code/dispatcher.py:137-146 | the index walk over the shrinking pool pings no more runners than lie ahead of it, evicts no more than it pings, and leaves the remaining runners in their original order |
| Coordinator.WalkStep | ci/code/dispatcher.py:137-146 | pinging the runner at the walk position continues the walk from the next position over the pool that ping leaves |
| Coordinator.WalkAllAlive | ci/code/dispatcher.py:137-142 | when every port is a number and every runner answers "pong", the sweep pings each runner once, in order, and keeps the whole pool |
| Coordinator.SweepPasses | ci/code/dispatcher.py:137-142 | a runner that answers "pong" is probed and kept, and the sweep state stays consistent |
| Coordinator.SweepFails | ci/code/dispatcher.py:142-146 | a failing runner is evicted and its first entry removed; the commit it held, if any, goes to the end of the waiting list; an evicted runner that held a commit has one recovered; the walk, pool count, order and books stay consistent |
| Coordinator.SweepKeptBound | ci/code/dispatcher.py:137-146 | after a sweep, every runner that answered "pong" is still in the pool |
| Coordinator.MoveBack | ci/code/dispatcher.py:130-131 | moving an assigned commit back to the waiting list keeps the set of known commits |
| Coordinator.LedgerMoves | ci/code/dispatcher.py:128-132 | evicting a runner that held a commit appends it to the waiting list and keeps the books consistent |
| Coordinator.Conserved | ci/code/dispatcher.py:127-133 | two consistent states that track the same commits have the same waiting count plus assignment count |
| Coordinator.Assignment | ci/code/dispatcher.py:34-36 | recording an assignment and dropping the commit's waiting entry keeps the waiting list free of repeats and of assigned commits, and adds exactly the commit to the known commits |
| Coordinator.Skipped | ci/code/dispatcher.py:151-154 | the skipping pattern of the index walk over the waiting list: as many commits are placed and left waiting as were waiting, and once the walk has passed the end it has placed as many commits as it left waiting, or one more |
| Coordinator.SkippedStep | ci/code/dispatcher.py:151-154 | taking the commit at the walk position out of the waiting list keeps the even/odd skipping pattern |
| Coordinator.SkippedMembers | ci/code/dispatcher.py:151-154 | the commits placed and those still waiting are a permutation of the commits that were waiting, so no commit is lost or invented |
| Coordinator.PlacementsStep | ci/code/dispatcher.py:151-154 | recording the commit taken in the next round, with the runner that round's dispatch pass chose, extends the placements, and older assignments are untouched |
| Coordinator.Dispatcher.constructor | ci/code/dispatcher.py:42-45 | the dispatcher starts with no runners, assignments, waiting commits or results |
| Coordinator.Dispatcher.Register | ci/code/dispatcher.py:63-69 | a `host:port` message appends exactly that runner, even a duplicate, and replies "OK"; any other message raises ValueError and changes nothing; assignments and waiting list are untouched |
| Coordinator.Dispatcher.DispatchTests | ci/code/dispatcher.py:24-38 | one pass: the decision is `FirstTaker` of the offers, where a runner whose port `int()` rejects raises before it is contacted; the taker is recorded and the commit's first waiting entry is removed; otherwise nothing changes; the tracked set grows by the commit exactly when it was taken |
| Coordinator.Dispatcher.HandleDispatch | ci/code/dispatcher.py:71-79 | with no runners it replies "No runners are registered" and changes nothing (the commit is not queued); otherwise it replies "OK" and runs one dispatch pass |
| Coordinator.Dispatcher.HandleResults | ci/code/dispatcher.py:81-97 | header errors crash with IndexError or ValueError; an unknown commit crashes with KeyError; otherwise only that assignment is deleted, the payload of the full frame is stored under the commit, and it replies "OK" |
| Coordinator.Dispatcher.Handle | ci/code/dispatcher.py:99-122 | on a first read of at most 1024 characters, as `recv(BUF_SIZE)` returns, it dispatches on the parse of the stripped frame: "Invalid command" and "Invalid Command" change nothing; a missing group 2 raises TypeError; `status` replies "OK"; the other verbs act as their handlers |
| Coordinator.Dispatcher.Evict | ci/code/dispatcher.py:127-133 | at most one commit assigned to the runner moves to the end of the waiting list, none when it held none; other assignments are untouched; the runner's first entry leaves the pool; the tracked set is unchanged |
| Coordinator.Dispatcher.CheckRunners | ci/code/dispatcher.py:137-146 | the runners pinged, the pool left and whether a non-numeric port raised ValueError are those of `Walk`, the index walk over the shrinking pool; evicted runners are exactly the pinged ones whose ping failed; the pool loses exactly them and keeps the rest in order, including every runner that answered "pong"; each recovered commit had been assigned to an evicted runner, and every evicted runner that held a commit has one recovered; the runners that gave commits back are a subsequence of the evicted runners, matched one to one with the recovered commits, so each eviction gives back at most one commit and the commits come back in eviction order; the tracked set is unchanged |
| Coordinator.Dispatcher.TryWaiting | ci/code/dispatcher.py:151-154 | one turn of the loop: the commit at position `i` gets one dispatch pass with that round's replies; when it is taken, exactly position `i` leaves the waiting list and the commit is assigned to the taker; otherwise nothing changes; the tracked set is unchanged |
| Coordinator.Dispatcher.Redistribute | ci/code/dispatcher.py:149-155 | the commits placed are the waiting commits at even positions up to where the pass stopped, and those still waiting are the odd positions before that point and everything after it; the k-th placed commit went to the runner that round k's dispatch pass chose, port check included; the tracked set and earlier assignments are kept; the pass stops early exactly when a commit found no taker, and reports that pass's outcome |

## Left out

- The TCP server, its threads, the `dead` flag, the command-line entry point and `repo_observer.py` are not modelled. These are process and concurrency wiring. Each handler and each loop pass is modelled as one sequential step on the shared state.
- `time.sleep` and the endless `while` loops are not modelled. `dispatch_tests`, `runner_checker` and `redistribute` are each modelled as one pass.
- `helpers.communicate` and the sockets are not part of this model. Runner replies, and the bytes a second `recv` returns, are parameters; the reply string is the result.
- Printing is not modelled.
- Writing `test_results/<commit id>` is modelled as the `stored` map. Directory creation and file errors are not modelled.
- Coordinator.Dispatcher.DispatchTests: models one pass over the runners. When nobody takes the commit the source sleeps and retries forever; the model reports `NoTaker` instead.
- Coordinator.Dispatcher.Redistribute: when a commit finds no taker, the model's pass stops with that outcome. The source would block in `dispatch_tests`, retrying that commit.
- Protocol.Join: its own contract states only how the result starts; what it computes is stated by `SplitJoin` and `JoinSplit`.
- Coordinator.Dispatcher.Evict: its contract states the set of tracked commits is unchanged. The count form (waiting entries plus assignments) is the separate lemma `Conserved`.
- Iteration order of `dispatched_commits` follows Python 2 hashing. The model picks an arbitrary matching entry, so it proves what holds for every order.
- Coordinator.Dispatcher.Evict: `removed` is false when the runner is not in the pool. The source would raise ValueError there after moving the commit; the model keeps the moved commit and leaves the pool as it was.
- Python 2's promotion of large numbers to `long` is implicit, because the model's integers are unbounded.
- Coordinator.Dispatcher.CheckRunners: a ValueError on a port ends the sweep with `raised`; that the thread then dies, and no later sweep runs, is not modelled.
- Protocol.FullFrame: `received` is whatever the second `recv` returned. The model does not bound it by the count asked for, because the socket decides that.
- Strings are sequences of characters. Bytes outside ASCII, and Python 2's byte-string details, are not modelled.

=== FILE: coordinator.dfy ===
/** The dispatcher's shared bookkeeping (ci/code/dispatcher.py): the runner
    pool, the commits handed to runners and the commits waiting for one, with
    one method per request handler and one per pass of the background loops.
    Network replies are inputs: a runner's answer to `runtest:` or `ping` is a
    Reply, supplied in the order the dispatcher asks. */
module Coordinator {
  import opened Wrappers
  import opened Sequences
  import opened Protocol

  /** A runner's answer to one request, or the socket error raised instead. */
  datatype Reply = Answer(text: string) | Unreachable

  /** How one pass of `dispatch_tests` over the runner list ended: the runner at
      `index` took the commit, nobody did, or contacting the runner at `index`
      raised (`dispatch_tests` does not catch socket errors). */
  datatype PassOutcome = Assigned(index: nat) | NoTaker | Raised(index: nat)

  /** What a request handler did: sent a reply, or died of an exception before
      sending one. */
  datatype Outcome = Replied(text: string) | Crashed(error: PyError)

  /** Every runner answered, and none answered "OK". */
  predicate Declined(replies: seq<Reply>)
  {
    forall k :: 0 <= k < |replies| ==> replies[k].Answer? && replies[k].text != "OK"
  }

  /** The runners declined when the first one did and so did the others. */
  lemma {:induction false} DeclinedCons(replies: seq<Reply>)
    requires replies != []
    ensures Declined(replies) <==>
            replies[0].Answer? && replies[0].text != "OK" && Declined(replies[1..])
  {
    var rest := replies[1..];
    assert forall k :: 0 <= k < |rest| ==> rest[k] == replies[k + 1];
    assert forall k :: 1 <= k < |replies| ==> replies[k] == rest[k - 1];
  }

  /** One more declining runner extends a run of declines. */
  lemma {:induction false} DeclinedSnoc(replies: seq<Reply>, i: nat)
    requires i < |replies| && Declined(replies[..i])
    requires replies[i].Answer? && replies[i].text != "OK"
    ensures Declined(replies[..i + 1])
  {
    assert forall k :: 0 <= k < i ==> replies[..i + 1][k] == replies[..i][k];
  }

  /** The decision of one dispatch pass, given the replies of the runners in list
      order: the first "OK" wins, a socket error before it ends the pass. */
  function FirstTaker(replies: seq<Reply>): (o: PassOutcome)
    ensures o.Assigned? ==>
              o.index < |replies| && replies[o.index] == Answer("OK") && Declined(replies[..o.index])
    ensures o.Raised? ==>
              o.index < |replies| && replies[o.index] == Unreachable && Declined(replies[..o.index])
    ensures o.NoTaker? <==> Declined(replies)
  {
    if replies == [] then NoTaker
    else if replies[0] == Answer("OK") then Assigned(0)
    else if replies[0] == Unreachable then Raised(0)
    else
      var rest := replies[1..];
      assert replies[0].Answer? && replies[0].text != "OK";
      DeclinedCons(replies);
      match FirstTaker(rest)
      case Assigned(k) =>
        assert replies[..k + 1] == [replies[0]] + rest[..k];
        assert replies[k + 1] == rest[k];
        Assigned(k + 1)
      case Raised(k) =>
        assert replies[..k + 1] == [replies[0]] + rest[..k];
        assert replies[k + 1] == rest[k];
        Raised(k + 1)
      case NoTaker => NoTaker
  }

  /** What one dispatch pass meets at a runner: its reply, or an exception
      when `int()` rejects the runner's port before the runner is contacted. */
  function Offer(runner: Runner, reply: Reply): Reply
  {
    if PyInt(runner.port).None? then Unreachable else reply
  }

  /** What one dispatch pass meets at each runner, in list order;
      `replies[k]` is the answer runner k would give. */
  function Offers(runners: seq<Runner>, replies: seq<Reply>): seq<Reply>
    requires |runners| <= |replies|
  {
    seq(|runners|, k requires 0 <= k < |runners| => Offer(runners[k], replies[k]))
  }

  /** Once the runners before i have declined, the reply of runner i decides the pass. */
  lemma {:induction false} FirstTakerAt(replies: seq<Reply>, i: nat)
    requires i < |replies| && Declined(replies[..i])
    requires replies[i] == Answer("OK") || replies[i] == Unreachable
    ensures FirstTaker(replies) == if replies[i] == Unreachable then Raised(i) else Assigned(i)
    decreases i
  {
    if i > 0 {
      var rest := replies[1..];
      var before, shifted := replies[..i], rest[..i - 1];
      assert before[0] == replies[0];
      assert forall k :: 0 <= k < i - 1 ==> shifted[k] == before[k + 1];
      FirstTakerAt(rest, i - 1);
    }
  }

  /** A runner is alive when it answers a ping with "pong". */
  predicate Alive(ping: Reply)
  {
    ping == Answer("pong")
  }

  /** The probed runners that answered "pong". */
  function Kept(probed: seq<Runner>, pings: seq<Reply>): seq<Runner>
    requires |probed| <= |pings|
    decreases |probed|
  {
    if probed == [] then []
    else
      var n := |probed| - 1;
      Kept(probed[..n], pings) + if Alive(pings[n]) then [probed[n]] else []
  }

  /** The probed runners that did not answer "pong" or could not be reached,
      in the order they were probed; they and the kept ones make up the probes. */
  function Evicted(probed: seq<Runner>, pings: seq<Reply>): (r: seq<Runner>)
    requires |probed| <= |pings|
    ensures multiset(r) + multiset(Kept(probed, pings)) == multiset(probed)
    decreases |probed|
  {
    if probed == [] then []
    else
      var n := |probed| - 1;
      var before := Evicted(probed[..n], pings);
      assert probed == probed[..n] + [probed[n]];
      before + if Alive(pings[n]) then [] else [probed[n]]
  }

  /** Probing one more runner appends it to the evicted list exactly when its
      ping did not answer "pong". */
  lemma {:induction false} EvictedSnoc(probed: seq<Runner>, r: Runner, pings: seq<Reply>)
    requires |probed| < |pings|
    ensures Evicted(probed + [r], pings) ==
            Evicted(probed, pings) + if Alive(pings[|probed|]) then [] else [r]
  {
    assert (probed + [r])[..|probed|] == probed;
  }

  /** Every runner whose probe failed is among the evicted. */
  lemma {:induction false} EvictedFailed(probed: seq<Runner>, pings: seq<Reply>)
    requires |probed| <= |pings|
    ensures forall k :: 0 <= k < |probed| && !Alive(pings[k]) ==> probed[k] in Evicted(probed, pings)
    decreases |probed|
  {
    if probed != [] {
      var n := |probed| - 1;
      var before := probed[..n];
      EvictedFailed(before, pings);
      assert probed == before + [probed[n]];
      EvictedSnoc(before, probed[n], pings);
      var earlier, last := Evicted(before, pings), if Alive(pings[n]) then [] else [probed[n]];
      assert Evicted(probed, pings) == earlier + last;
      forall k | 0 <= k < |probed| && !Alive(pings[k])
        ensures probed[k] in earlier + last
      {
        if k < n {
          assert before[k] == probed[k];
          assert probed[k] in earlier;
        } else {
          assert probed[k] in last;
        }
      }
    }
  }

  /** A runner is among the evicted only when one of its probes failed: with
      `EvictedFailed`, eviction is exactly a failed probe. */
  lemma {:induction false} EvictedExactly(probed: seq<Runner>, pings: seq<Reply>)
    requires |probed| <= |pings|
    ensures forall k :: 0 <= k < |probed| && !Alive(pings[k]) ==> probed[k] in Evicted(probed, pings)
    ensures forall x :: x in Evicted(probed, pings) ==>
              exists k :: 0 <= k < |probed| && probed[k] == x && !Alive(pings[k])
    decreases |probed|
  {
    EvictedFailed(probed, pings);
    if probed != [] {
      var n := |probed| - 1;
      var before := probed[..n];
      EvictedExactly(before, pings);
      forall x | x in Evicted(probed, pings)
        ensures exists k :: 0 <= k < |probed| && probed[k] == x && !Alive(pings[k])
      {
        if x in Evicted(before, pings) {
          var k :| 0 <= k < n && before[k] == x && !Alive(pings[k]);
          assert probed[k] == x;
        } else {
          assert probed[n] == x && !Alive(pings[n]);
        }
      }
    }
  }

  /** A runner is among the kept exactly when one of its probes answered "pong". */
  lemma {:induction false} KeptExactly(probed: seq<Runner>, pings: seq<Reply>)
    requires |probed| <= |pings|
    ensures forall k :: 0 <= k < |probed| && Alive(pings[k]) ==> probed[k] in Kept(probed, pings)
    ensures forall x :: x in Kept(probed, pings) ==>
              exists k :: 0 <= k < |probed| && probed[k] == x && Alive(pings[k])
    decreases |probed|
  {
    if probed != [] {
      var n := |probed| - 1;
      var before := probed[..n];
      KeptExactly(before, pings);
      assert forall k :: 0 <= k < n ==> before[k] == probed[k];
      forall x | x in Kept(probed, pings)
        ensures exists k :: 0 <= k < |probed| && probed[k] == x && Alive(pings[k])
      {
        if x in Kept(before, pings) {
          var k :| 0 <= k < n && before[k] == x && Alive(pings[k]);
          assert probed[k] == x;
        } else {
          assert probed[n] == x && Alive(pings[n]);
        }
      }
    }
  }

  /** Where a sweep ends: the runners pinged, in order, the pool it leaves, and
      whether `int()` of a runner's port raised ValueError, which ends
      `runner_checker` (only socket errors are caught). */
  datatype SweepRun = SweepRun(probed: seq<Runner>, pool: seq<Runner>, raised: bool)

  /** The index walk of `runner_checker`'s for loop from position i, over a pool
      that loses the first entry of each failing runner as the walk goes;
      `pings[k]` answers the k-th ping. The walk pings no more runners than
      lie ahead of it, evicts no more than it pings, and leaves the remaining
      runners in their order. */
  function Walk(pool: seq<Runner>, pings: seq<Reply>, i: nat): (w: SweepRun)
    requires |pool| <= |pings|
    ensures i <= |pool| ==> i + |w.probed| <= |pool|
    ensures |pool| - |w.pool| <= |w.probed|
    ensures Subseq(w.pool, pool)
    decreases |pool| - i
  {
    if i >= |pool| then SubseqRefl(pool); SweepRun([], pool, false)
    else if PyInt(pool[i].port).None? then SubseqRefl(pool); SweepRun([], pool, true)
    else
      var r := pool[i];
      assert r in pool;
      var next := if Alive(pings[i]) then pool else RemoveFirst(pool, r);
      var w := Walk(next, pings, i + 1);
      assert Subseq(next, pool) by {
        if Alive(pings[i]) { SubseqRefl(pool); } else { RemoveFirstSubseq(pool, r); }
      }
      SubseqTrans(w.pool, next, pool);
      SweepRun([r] + w.probed, w.pool, w.raised)
  }

  /** A walk that had already pinged `done` before it reached w's start. */
  function Resumed(done: seq<Runner>, w: SweepRun): SweepRun
  {
    SweepRun(done + w.probed, w.pool, w.raised)
  }

  /** The pool a walk moves on with after pinging position i. */
  function NextPool(pool: seq<Runner>, pings: seq<Reply>, i: nat): seq<Runner>
    requires i < |pool| <= |pings|
  {
    if Alive(pings[i]) then pool else RemoveFirst(pool, pool[i])
  }

  /** A walk that reaches a runner whose port is a number pings it and goes on
      from the next position over the pool that ping leaves. */
  lemma {:induction false} WalkUnfold(pool: seq<Runner>, pings: seq<Reply>, i: nat)
    requires i < |pool| <= |pings| && PyInt(pool[i].port).Some?
    ensures |NextPool(pool, pings, i)| <= |pings|
    ensures Walk(pool, pings, i) == Resumed([pool[i]], Walk(NextPool(pool, pings, i), pings, i + 1))
  {
    assert pool[i] in pool;
  }

  /** One step of the walk: after the pings before position i, pinging the
      runner there continues the walk from i + 1 over the pool that step leaves. */
  lemma {:induction false} WalkStep(start: seq<Runner>, pings: seq<Reply>, pool: seq<Runner>, probed: seq<Runner>)
    requires |start| <= |pings| && |probed| < |pool| <= |pings| && PyInt(pool[|probed|].port).Some?
    requires Walk(start, pings, 0) == Resumed(probed, Walk(pool, pings, |probed|))
    ensures |NextPool(pool, pings, |probed|)| <= |pings|
    ensures Walk(start, pings, 0) ==
            Resumed(probed + [pool[|probed|]], Walk(NextPool(pool, pings, |probed|), pings, |probed| + 1))
  {
    var i := |probed|;
    WalkUnfold(pool, pings, i);
    var w := Walk(NextPool(pool, pings, i), pings, i + 1);
    assert probed + ([pool[i]] + w.probed) == (probed + [pool[i]]) + w.probed;
  }

  /** When every port is a number and every runner answers "pong", the sweep
      pings every runner once, in order, and keeps the whole pool. */
  lemma {:induction false} WalkAllAlive(pool: seq<Runner>, pings: seq<Reply>, i: nat)
    requires |pool| <= |pings| && i <= |pool|
    requires forall k :: i <= k < |pool| ==> PyInt(pool[k].port).Some? && Alive(pings[k])
    ensures Walk(pool, pings, i) == SweepRun(pool[i..], pool, false)
    decreases |pool| - i
  {
    if i < |pool| {
      WalkUnfold(pool, pings, i);
      assert NextPool(pool, pings, i) == pool;
      WalkAllAlive(pool, pings, i + 1);
      assert pool[i..] == [pool[i]] + pool[i + 1..];
    }
  }

  /** How far a redistribution pass that placed p commits has walked a
      waiting list of n: two positions per placed commit, up to the end. */
  function Reached(n: nat, p: nat): nat
  {
    if 2 * p <= n then 2 * p else n
  }

  /** The shape of the waiting list after a redistribution pass over
      `pending0` that placed the commits `placed`: walking the list by index
      while each placed commit leaves it tries the commits at even positions,
      so `placed` holds those and `pending` keeps the odd positions before
      the point reached and everything after it. Once the walk has passed
      the end, it has placed as many commits as it left waiting, or one
      more. */
  ghost predicate Skipped(pending0: seq<string>, pending: seq<string>, placed: seq<string>): (r: bool)
    ensures r ==> |pending| + |placed| == |pending0|
    ensures r && 2 * |placed| >= |pending0| ==>
              |pending| <= |placed| <= |pending| + 1
  {
    2 * |placed| <= |pending0| + 1 &&
    var walked := pending0[..Reached(|pending0|, |placed|)];
    placed == Evens(walked) && pending == Odds(walked) + pending0[|walked|..]
  }

  /** Placing the commit at the current index removes it and moves the
      index past its successor. */
  lemma {:induction false} SkippedStep(pending0: seq<string>, pending: seq<string>, placed: seq<string>)
    requires Skipped(pending0, pending, placed) && |placed| < |pending|
    ensures Skipped(pending0, pending[..|placed|] + pending[|placed| + 1..], placed + [pending[|placed|]])
  {
    var p := |placed|;
    var m := 2 * p;
    var walked := pending0[..m];
    assert m < |pending0| && pending == Odds(walked) + pending0[m..];
    var x := pending0[m];
    assert pending[p] == x && pending[..p] == Odds(walked) && pending[p + 1..] == pending0[m + 1..];
    assert pending0[..m + 1] == walked + [x];
    EvensOddsSnoc(walked, x);
    if m + 2 <= |pending0| {
      var y := pending0[m + 1];
      assert pending0[..m + 2] == pending0[..m + 1] + [y];
      EvensOddsSnoc(pending0[..m + 1], y);
      assert pending0[m + 1..] == [y] + pending0[m + 2..];
    }
  }

  /** A redistribution pass loses no waiting commit and invents none: the
      commits placed and those still waiting are a permutation of those that
      were waiting. */
  lemma {:induction false} SkippedMembers(pending0: seq<string>, pending: seq<string>, placed: seq<string>)
    requires Skipped(pending0, pending, placed)
    ensures multiset(pending) + multiset(placed) == multiset(pending0)
    ensures (set c | c in pending) + (set c | c in placed) == set c | c in pending0
  {
    var walked := pending0[..Reached(|pending0|, |placed|)];
    EvensOddsSplit(walked);
    assert pending0 == walked + pending0[|walked|..];
    forall c
      ensures c in pending || c in placed <==> c in pending0
    {
      assert c in pending <==> c in multiset(pending);
      assert c in placed <==> c in multiset(placed);
      assert c in pending0 <==> c in multiset(pending0);
    }
  }

  /** The decision of the dispatch pass of each round, the runners' replies
      in round k being `rounds[k]`. */
  ghost function Verdicts(runners: seq<Runner>, rounds: seq<seq<Reply>>): seq<PassOutcome>
    requires forall k :: 0 <= k < |rounds| ==> |runners| <= |rounds[k]|
  {
    seq(|rounds|, k requires 0 <= k < |rounds| => FirstTaker(Offers(runners, rounds[k])))
  }

  /** The assignments made by a redistribution pass whose rounds were decided
      by `verdicts`: each placed commit was taken in its round and went to the
      runner that took it, and the assignments present before the pass are
      untouched. */
  ghost predicate Placements(dispatched0: map<string, Runner>, runners: seq<Runner>, verdicts: seq<PassOutcome>,
                             placed: seq<string>, dispatched: map<string, Runner>)
  {
    |placed| <= |verdicts| &&
    (forall k :: 0 <= k < |placed| ==>
       verdicts[k].Assigned? && verdicts[k].index < |runners| &&
       placed[k] in dispatched && dispatched[placed[k]] == runners[verdicts[k].index]) &&
    dispatched.Keys == dispatched0.Keys + (set c | c in placed) &&
    (forall c :: c in dispatched0 ==> dispatched[c] == dispatched0[c])
  }

  /** Assigning a commit that had no assignment extends the placements by one. */
  lemma {:induction false} PlacementsStep(dispatched0: map<string, Runner>, runners: seq<Runner>, verdicts: seq<PassOutcome>,
                       placed: seq<string>, dispatched: map<string, Runner>, c: string, j: nat)
    requires Placements(dispatched0, runners, verdicts, placed, dispatched) && c !in dispatched
    requires |placed| < |verdicts| && verdicts[|placed|] == Assigned(j) && j < |runners|
    ensures Placements(dispatched0, runners, verdicts, placed + [c], dispatched[c := runners[j]])
  {
    var next, after := placed + [c], dispatched[c := runners[j]];
    assert c !in dispatched0;
    assert (set x | x in next) == (set x | x in placed) + {c};
    assert after.Keys == dispatched.Keys + {c};
    forall k | 0 <= k < |placed|
      ensures next[k] in after && after[next[k]] == runners[verdicts[k].index]
    {
      assert next[k] == placed[k] && placed[k] != c;
    }
  }

  /** Handing a commit to a runner and taking it off the waiting list keeps
      the waiting list free of repeats and of assigned commits, and adds the
      commit to those the dispatcher knows about. */
  lemma {:induction false} Assignment(pending: seq<string>, dispatched: map<string, Runner>, commit: string, r: Runner)
    requires Distinct(pending) && forall c :: c in pending ==> c !in dispatched
    ensures var pending', dispatched' := RemoveFirst(pending, commit), dispatched[commit := r];
            Distinct(pending') && (forall c :: c in pending' ==> c !in dispatched') &&
            (set c | c in pending') + dispatched'.Keys == (set c | c in pending) + dispatched.Keys + {commit}
  {
    RemoveFirstMembers(pending, commit);
    if commit in pending {
      RemoveFirstAt(pending, FirstIndex(pending, commit));
    }
  }

  /** The bookkeeping invariant of a liveness sweep that started from the
      waiting list `pending0`, the assignments `dispatched0` and the tracked
      commits `tracked0`: the recovered commits were appended to the waiting
      list in order; `owners[k]` is the runner `recovered[k]` had been
      dispatched to, and `owners` is a subsequence of `evicted`, so each
      eviction gave back at most one commit and the commits came back in the
      order their runners were evicted; the assignments that remain are
      original ones, and no commit was lost or invented. */
  ghost predicate Ledger(pending0: seq<string>, dispatched0: map<string, Runner>, tracked0: set<string>,
                         pending: seq<string>, dispatched: map<string, Runner>,
                         recovered: seq<string>, owners: seq<Runner>, evicted: seq<Runner>)
  {
    pending == pending0 + recovered && |recovered| <= |evicted| &&
    |owners| == |recovered| && Subseq(owners, evicted) &&
    (forall k :: 0 <= k < |recovered| ==> recovered[k] in dispatched0 && dispatched0[recovered[k]] == owners[k]) &&
    (forall c :: c in recovered ==> c in dispatched0 && dispatched0[c] in evicted) &&
    (forall c :: c in dispatched ==> c in dispatched0 && dispatched[c] == dispatched0[c]) &&
    (forall c :: c in dispatched0 && c !in dispatched ==> c in recovered) &&
    (forall r :: r in evicted && Held(dispatched0, r) ==> Recovers(dispatched0, recovered, r)) &&
    (set c | c in pending) + dispatched.Keys == tracked0
  }

  /** Runner r holds some commit in the assignments d. */
  ghost predicate Held(d: map<string, Runner>, r: Runner)
  {
    exists c :: c in d && d[c] == r
  }

  /** One of the recovered commits had been assigned to r in d. */
  ghost predicate Recovers(d: map<string, Runner>, recovered: seq<string>, r: Runner)
  {
    exists c :: c in recovered && c in d && d[c] == r
  }

  /** Moving an assigned commit back to the waiting list keeps the set of
      commits the dispatcher knows about. */
  lemma {:induction false} MoveBack(pending: seq<string>, dispatched: map<string, Runner>, c: string)
    requires c in dispatched
    ensures (set x | x in pending + [c]) + (dispatched - {c}).Keys == (set x | x in pending) + dispatched.Keys
  {
    assert (set x | x in pending + [c]) == (set x | x in pending) + {c};
  }

  /** A waiting list without repeats has as many distinct commits as entries. */
  lemma {:induction false} DistinctCount(pending: seq<string>)
    requires Distinct(pending)
    ensures |set c | c in pending| == |pending|
    decreases |pending|
  {
    if pending != [] {
      var rest := pending[1..];
      assert Distinct(rest) by {
        forall i, j | 0 <= i < j < |rest| ensures rest[i] != rest[j] {
          assert rest[i] == pending[i + 1] && rest[j] == pending[j + 1];
        }
      }
      DistinctCount(rest);
      assert pending[0] !in rest by {
        forall k | 0 <= k < |rest| ensures rest[k] != pending[0] {
          assert rest[k] == pending[k + 1];
        }
      }
      assert (set c | c in pending) == (set c | c in rest) + {pending[0]} by {
        assert pending == [pending[0]] + rest;
      }
    }
  }

  /** Two consistent states that track the same commits hold the same number of
      commits: the waiting entries plus the assignments are conserved. */
  lemma {:induction false} Conserved(pending0: seq<string>, dispatched0: map<string, Runner>,
                  pending: seq<string>, dispatched: map<string, Runner>)
    requires Distinct(pending0) && forall c :: c in pending0 ==> c !in dispatched0
    requires Distinct(pending) && forall c :: c in pending ==> c !in dispatched
    requires (set c | c in pending0) + dispatched0.Keys == (set c | c in pending) + dispatched.Keys
    ensures |pending0| + |dispatched0| == |pending| + |dispatched|
  {
    DistinctCount(pending0);
    DistinctCount(pending);
    assert (set c | c in pending0) !! dispatched0.Keys;
    assert (set c | c in pending) !! dispatched.Keys;
  }

  /** Evicting a runner that held commit `c` moves `c` to the waiting list. */
  lemma {:induction false} LedgerMoves(pending0: seq<string>, dispatched0: map<string, Runner>, tracked0: set<string>,
                    pending: seq<string>, dispatched: map<string, Runner>,
                    recovered: seq<string>, owners: seq<Runner>, evicted: seq<Runner>, c: string, r: Runner)
    requires Ledger(pending0, dispatched0, tracked0, pending, dispatched, recovered, owners, evicted)
    requires c in dispatched && dispatched[c] == r && c !in pending
    ensures Ledger(pending0, dispatched0, tracked0, pending + [c], dispatched - {c},
                   recovered + [c], owners + [r], evicted + [r])
  {
    SubseqSnoc(owners, evicted, r);
    assert pending0 + (recovered + [c]) == pending + [c];
    MoveBack(pending, dispatched, c);
    forall x | x in evicted + [r] && Held(dispatched0, x)
      ensures Recovers(dispatched0, recovered + [c], x)
    {
      if x in evicted {
        var w :| w in recovered && w in dispatched0 && dispatched0[w] == x;
        assert w in recovered + [c];
      } else {
        assert c in recovered + [c] && dispatched0[c] == x;
      }
    }
  }

  /** Evicting a runner that held no commit leaves the books as they were. */
  lemma {:induction false} LedgerKeeps(pending0: seq<string>, dispatched0: map<string, Runner>, tracked0: set<string>,
                    pending: seq<string>, dispatched: map<string, Runner>,
                    recovered: seq<string>, owners: seq<Runner>, evicted: seq<Runner>, r: Runner)
    requires Ledger(pending0, dispatched0, tracked0, pending, dispatched, recovered, owners, evicted)
    requires forall c :: c in dispatched ==> dispatched[c] != r
    ensures Ledger(pending0, dispatched0, tracked0, pending, dispatched, recovered, owners, evicted + [r])
  {
    SubseqSnoc(owners, evicted, r);
    forall x | x in evicted + [r] && Held(dispatched0, x)
      ensures Recovers(dispatched0, recovered, x)
    {
      if x !in evicted {
        // r held a commit that is no longer assigned, so it was recovered,
        // and only from an evicted runner: r was evicted before.
        assert false;
      }
    }
  }

  /** The counting invariant of a liveness sweep over the pool `start`: the
      current pool and the evicted runners make up the starting pool, and the
      probed runners and those still ahead of position i fit inside it. */
  ghost predicate SweepCount(start: seq<Runner>, pool: seq<Runner>, probed: seq<Runner>, evicted: seq<Runner>, i: nat)
  {
    multiset(pool) + multiset(evicted) == multiset(start) &&
    multiset(probed) + multiset(From(pool, i)) <= multiset(start)
  }

  /** A runner that answers "pong" is probed and kept. */
  lemma {:induction false} SweepKeeps(start: seq<Runner>, pool: seq<Runner>, probed: seq<Runner>, evicted: seq<Runner>, i: nat)
    requires i < |pool| && SweepCount(start, pool, probed, evicted, i)
    ensures SweepCount(start, pool, probed + [pool[i]], evicted, i + 1)
  {
    assert pool[i..] == [pool[i]] + From(pool, i + 1);
  }

  /** A runner that fails its ping is probed, evicted and removed from the pool. */
  lemma {:induction false} SweepEvicts(start: seq<Runner>, pool: seq<Runner>, probed: seq<Runner>, evicted: seq<Runner>, i: nat)
    requires i < |pool| && SweepCount(start, pool, probed, evicted, i)
    ensures SweepCount(start, RemoveFirst(pool, pool[i]), probed + [pool[i]], evicted + [pool[i]], i + 1)
  {
    RemoveFirstShift(pool, i);
    assert pool[i] in pool;
  }

  /** At the end of a sweep every runner that answered "pong" is still in the
      pool, as often as it answered. */
  lemma {:induction false} SweepKeptBound(start: seq<Runner>, pool: seq<Runner>, probed: seq<Runner>, evicted: seq<Runner>, pings: seq<Reply>, i: nat)
    requires |probed| <= |pings| && evicted == Evicted(probed, pings)
    requires SweepCount(start, pool, probed, evicted, i)
    ensures multiset(Kept(probed, pings)) <= multiset(pool)
  {
    var kept, ev := multiset(Kept(probed, pings)), multiset(evicted);
    assert ev + kept == multiset(probed);
    assert multiset(probed) <= multiset(start);
    forall x
      ensures kept[x] <= multiset(pool)[x]
    {
      assert (ev + kept)[x] == ev[x] + kept[x];
      assert (multiset(pool) + ev)[x] == multiset(pool)[x] + ev[x];
    }
  }

  /** The state of a liveness sweep over the pool `start` after |probed| pings:
      the pool count and order as `SweepCount` and `Subseq` say, and the books
      as `Ledger` says against the waiting list, assignments and tracked
      commits the sweep began with. */
  ghost predicate Sweep(start: seq<Runner>, pings: seq<Reply>,
                        pending0: seq<string>, dispatched0: map<string, Runner>, tracked0: set<string>,
                        pool: seq<Runner>, pending: seq<string>, dispatched: map<string, Runner>,
                        probed: seq<Runner>, evicted: seq<Runner>, recovered: seq<string>, owners: seq<Runner>)
  {
    |probed| <= |start| <= |pings| && |pool| <= |start| && evicted == Evicted(probed, pings) &&
    Walk(start, pings, 0) == Resumed(probed, Walk(pool, pings, |probed|)) &&
    SweepCount(start, pool, probed, evicted, |probed|) && Subseq(pool, start) &&
    Ledger(pending0, dispatched0, tracked0, pending, dispatched, recovered, owners, evicted)
  }

  /** The runner at the sweep position answered "pong": it is probed and kept. */
  lemma {:induction false} SweepPasses(start: seq<Runner>, pings: seq<Reply>,
                    pending0: seq<string>, dispatched0: map<string, Runner>, tracked0: set<string>,
                    pool: seq<Runner>, pending: seq<string>, dispatched: map<string, Runner>,
                    probed: seq<Runner>, evicted: seq<Runner>, recovered: seq<string>, owners: seq<Runner>)
    requires Sweep(start, pings, pending0, dispatched0, tracked0, pool, pending, dispatched, probed, evicted, recovered, owners)
    requires |probed| < |pool| && PyInt(pool[|probed|].port).Some? && Alive(pings[|probed|])
    ensures Sweep(start, pings, pending0, dispatched0, tracked0, pool, pending, dispatched,
                  probed + [pool[|probed|]], evicted, recovered, owners)
  {
    var i := |probed|;
    EvictedSnoc(probed, pool[i], pings);
    assert Evicted(probed + [pool[i]], pings) == evicted;
    SweepKeeps(start, pool, probed, evicted, i);
    WalkStep(start, pings, pool, probed);
    assert NextPool(pool, pings, i) == pool;
  }

  /** The runner at the sweep position failed its ping: it is probed, evicted
      and removed from the pool, and the commit it held (if any) goes back to
      the end of the waiting list. */
  lemma {:induction false} SweepFails(start: seq<Runner>, pings: seq<Reply>,
                   pending0: seq<string>, dispatched0: map<string, Runner>, tracked0: set<string>,
                   pool: seq<Runner>, pending: seq<string>, dispatched: map<string, Runner>,
                   probed: seq<Runner>, evicted: seq<Runner>, recovered: seq<string>, owners: seq<Runner>,
                   moved: Option<string>, pending': seq<string>, dispatched': map<string, Runner>)
    requires Sweep(start, pings, pending0, dispatched0, tracked0, pool, pending, dispatched, probed, evicted, recovered, owners)
    requires |probed| < |pool| && PyInt(pool[|probed|].port).Some? && !Alive(pings[|probed|])
    requires forall c :: c in pending ==> c !in dispatched
    requires moved.None? ==> pending' == pending && dispatched' == dispatched
    requires moved.None? ==> forall c :: c in dispatched ==> dispatched[c] != pool[|probed|]
    requires moved.Some? ==>
               moved.value in dispatched && dispatched[moved.value] == pool[|probed|] &&
               pending' == pending + [moved.value] && dispatched' == dispatched - {moved.value}
    ensures Sweep(start, pings, pending0, dispatched0, tracked0,
                  RemoveFirst(pool, pool[|probed|]), pending', dispatched',
                  probed + [pool[|probed|]], evicted + [pool[|probed|]],
                  if moved.Some? then recovered + [moved.value] else recovered,
                  if moved.Some? then owners + [pool[|probed|]] else owners)
  {
    var i := |probed|;
    var r := pool[i];
    EvictedSnoc(probed, r, pings);
    SweepEvicts(start, pool, probed, evicted, i);
    RemoveFirstSubseq(pool, r);
    SubseqTrans(RemoveFirst(pool, r), pool, start);
    WalkStep(start, pings, pool, probed);
    if moved.Some? {
      LedgerMoves(pending0, dispatched0, tracked0, pending, dispatched, recovered, owners, evicted, moved.value, r);
    } else {
      LedgerKeeps(pending0, dispatched0, tracked0, pending, dispatched, recovered, owners, evicted, r);
    }
  }

  /** A sweep that has passed the end of the pool, or reached a runner whose
      port is not a number, is where the walk ends. */
  lemma {:induction false} SweepDone(start: seq<Runner>, pings: seq<Reply>,
                  pending0: seq<string>, dispatched0: map<string, Runner>, tracked0: set<string>,
                  pool: seq<Runner>, pending: seq<string>, dispatched: map<string, Runner>,
                  probed: seq<Runner>, evicted: seq<Runner>, recovered: seq<string>, owners: seq<Runner>)
    requires Sweep(start, pings, pending0, dispatched0, tracked0, pool, pending, dispatched, probed, evicted, recovered, owners)
    requires |probed| < |pool| ==> PyInt(pool[|probed|].port).None?
    ensures Walk(start, pings, 0) == SweepRun(probed, pool, |probed| < |pool|)
  {
    assert probed + [] == probed;
  }

  class Dispatcher {
    /** `runners`: the pool of test runners, in registration order. */
    var runners: seq<Runner>
    /** `dispatched_commits`: the runner each commit was handed to. */
    var dispatched: map<string, Runner>
    /** `pending_commits`: commits waiting for a runner. */
    var pending: seq<string>
    /** The files under `test_results/`, by commit id. */
    var stored: map<string, string>

    /** No commit waits twice, and no waiting commit is also handed out. */
    ghost predicate Valid()
      reads this
    {
      Distinct(pending) && forall c :: c in pending ==> c !in dispatched
    }

    /** Every commit the dispatcher is responsible for. */
    ghost function Tracked(): set<string>
      reads this
    {
      (set c | c in pending) + dispatched.Keys
    }

    constructor ()
      ensures Valid()
      ensures runners == [] && dispatched == map[] && pending == [] && stored == map[]
    {
      runners, dispatched, pending, stored := [], map[], [], map[];
    }

    // ------------------------------------------------------------ register

    /** The effect of `register_handler` on a message. */
    twostate predicate Registered(message: string, out: Outcome)
      reads this
    {
      dispatched == old(dispatched) && pending == old(pending) && stored == old(stored) &&
      match ParseRunner(message)
      case None => out == Crashed(ValueError) && runners == old(runners)
      case Some(r) => out == Replied("OK") && runners == old(runners) + [r]
    }

    /** `register_handler`: appends the runner named by `host:port`, even when it
        is already registered. */
    method Register(message: string) returns (out: Outcome)
      requires Valid()
      modifies this
      ensures Valid() && Registered(message, out)
    {
      match ParseRunner(message)
      case None =>
        out := Crashed(ValueError);
      case Some(r) =>
        runners := runners + [r];
        out := Replied("OK");
    }

    // ------------------------------------------------------------ dispatch

    /** The effect of one dispatch pass for commit that ended with `verdict`. */
    twostate predicate Passed(commit: string, verdict: PassOutcome)
      reads this
    {
      runners == old(runners) && stored == old(stored) &&
      match verdict
      case Assigned(k) =>
        k < |runners| &&
        dispatched == old(dispatched)[commit := runners[k]] &&
        pending == RemoveFirst(old(pending), commit)
      case _ =>
        dispatched == old(dispatched) && pending == old(pending)
    }

    /** The loop of one `dispatch_tests` pass: offer the commit to each runner
        in list order until one answers "OK" (the taker) or contacting one
        raises. A port that `int()` rejects raises ValueError before the runner
        is contacted, which ends the pass like a socket error. Runners after
        the one that decides are not contacted. */
    method FindTaker(replies: seq<Reply>) returns (o: PassOutcome)
      requires |runners| <= |replies|
      ensures o == FirstTaker(Offers(runners, replies))
    {
      ghost var offers := Offers(runners, replies);
      var i := 0;
      while i < |runners|
        invariant 0 <= i <= |runners| == |offers|
        invariant Declined(offers[..i])
      {
        assert offers[i] == Offer(runners[i], replies[i]);
        if PyInt(runners[i].port).None? {
          FirstTakerAt(offers, i);
          return Raised(i);
        }
        var response := replies[i];
        if response == Answer("OK") {
          FirstTakerAt(offers, i);
          return Assigned(i);
        } else if response == Unreachable {
          FirstTakerAt(offers, i);
          return Raised(i);
        }
        assert offers[i] == response;
        DeclinedSnoc(offers, i);
        i := i + 1;
      }
      assert offers == offers[..i];
      o := NoTaker;
    }

    /** One pass of `dispatch_tests`: the first runner to answer "OK" gets the
        commit; the assignment is recorded and the commit stops waiting. */
    method DispatchTests(commit: string, replies: seq<Reply>) returns (o: PassOutcome)
      requires Valid() && |runners| <= |replies|
      modifies this
      ensures Valid() && runners == old(runners)
      ensures o == FirstTaker(Offers(runners, replies))
      ensures Passed(commit, o)
      ensures Tracked() == old(Tracked()) + if o.Assigned? then {commit} else {}
    {
      o := FindTaker(replies);
      if o.Assigned? {
        var taker := runners[o.index];
        Assignment(pending, dispatched, commit, taker);
        dispatched := dispatched[commit := taker];
        pending := RemoveFirst(pending, commit);
      }
    }

    /** The effect of `dispatcher_handler`. */
    twostate predicate DispatchHandled(message: string, replies: seq<Reply>, out: Outcome)
      reads this
    {
      if old(runners) == [] then
        out == Replied("No runners are registered") && unchanged(this)
      else
        out == Replied("OK") && |runners| <= |replies| && Passed(message, FirstTaker(Offers(runners, replies)))
    }

    /** `dispatcher_handler`: with no runner registered it refuses and does not
        queue the commit; otherwise it answers "OK" before trying the runners. */
    method HandleDispatch(message: string, replies: seq<Reply>) returns (out: Outcome)
      requires Valid() && |runners| <= |replies|
      modifies this
      ensures Valid() && DispatchHandled(message, replies, out)
    {
      if runners == [] {
        out := Replied("No runners are registered");
      } else {
        out := Replied("OK");
        var _ := DispatchTests(message, replies);
      }
    }

    // ------------------------------------------------------------- results

    /** The effect of `results_handler`. */
    twostate predicate ResultsStored(command: string, message: string, data: string, received: string, out: Outcome)
      reads this
    {
      runners == old(runners) && pending == old(pending) &&
      match ParseResults(message)
      case Failure(e) =>
        out == Crashed(e) && dispatched == old(dispatched) && stored == old(stored)
      case Success(h) =>
        if h.commitId in old(dispatched) then
          out == Replied("OK") && dispatched == old(dispatched) - {h.commitId} &&
          stored == old(stored)[h.commitId := StoredPayload(FullFrame(data, command, h, received))]
        else
          out == Crashed(KeyError) && dispatched == old(dispatched) && stored == old(stored)
    }

    /** `results_handler`: reads the commit id and length, reads the rest of a
        long frame, forgets the commit's assignment (KeyError when there is
        none) and stores the payload. */
    method HandleResults(command: string, message: string, data: string, received: string)
      returns (out: Outcome)
      requires Valid()
      modifies this
      ensures Valid() && ResultsStored(command, message, data, received, out)
    {
      match ParseResults(message)
      case Failure(e) =>
        out := Crashed(e);
      case Success(h) =>
        var frame := FullFrame(data, command, h, received);
        if h.commitId !in dispatched {
          out := Crashed(KeyError);
        } else {
          dispatched := dispatched - {h.commitId};
          stored := stored[h.commitId := StoredPayload(frame)];
          out := Replied("OK");
        }
    }

    // -------------------------------------------------------------- handle

    /** `handle`: strip the first read, parse the header and call the handler.
        `raw` is what one `recv(BUF_SIZE)` returned, so it holds at most
        `BufSize` characters. */
    method Handle(raw: string, replies: seq<Reply>, received: string) returns (out: Outcome)
      requires Valid() && |runners| <= |replies| && |raw| <= BufSize
      modifies this
      ensures Valid()
      ensures match Parse(Strip(raw))
              case NoMatch => out == Replied("Invalid command") && unchanged(this)
              case UnknownVerb(_) => out == Replied("Invalid Command") && unchanged(this)
              case NoMessage(_) => out == Crashed(TypeError) && unchanged(this)
              case Request(Status, _) => out == Replied("OK") && unchanged(this)
              case Request(Register, m) => Registered(m, out)
              case Request(Dispatch, m) => DispatchHandled(m, replies, out)
              case Request(Results, m) => ResultsStored("results", m, Strip(raw), received, out)
    {
      var data := Strip(raw);
      match Parse(data)
      case NoMatch =>
        out := Replied("Invalid command");
      case UnknownVerb(_) =>
        out := Replied("Invalid Command");
      case NoMessage(_) =>
        out := Crashed(TypeError);
      case Request(verb, message) =>
        match verb
        case Status =>
          out := Replied("OK");
        case Register =>
          out := Register(message);
        case Dispatch =>
          out := HandleDispatch(message, replies);
        case Results =>
          out := HandleResults(VerbName(Results), message, data, received);
    }

    // ------------------------------------------------------------- eviction

    /** `manage_commit_lists`: hand at most one commit of the runner back to the
        waiting list, then drop the runner's first entry from the pool.
        `removed` is false when the runner was not in the pool, where
        `list.remove` raises ValueError after the commit has been moved. */
    method Evict(runner: Runner) returns (recovered: Option<string>, removed: bool)
      requires Valid()
      modifies this
      ensures Valid()
      ensures removed == (runner in old(runners))
      ensures runners == RemoveFirst(old(runners), runner) && stored == old(stored)
      ensures recovered.None? ==>
                dispatched == old(dispatched) && pending == old(pending) &&
                forall c :: c in old(dispatched) ==> old(dispatched)[c] != runner
      ensures recovered.Some? ==>
                var c := recovered.value;
                c in old(dispatched) && old(dispatched)[c] == runner &&
                dispatched == old(dispatched) - {c} && pending == old(pending) + [c]
      ensures Tracked() == old(Tracked())
    {
      recovered := None;
      var keys := dispatched.Keys;
      while keys != {}
        invariant keys <= dispatched.Keys
        invariant unchanged(this)
        invariant forall c :: c in dispatched && c !in keys ==> dispatched[c] != runner
        decreases keys
      {
        var c :| c in keys;
        if dispatched[c] == runner {
          MoveBack(pending, dispatched, c);
          dispatched, pending := dispatched - {c}, pending + [c];
          recovered := Some(c);
          break;
        }
        keys := keys - {c};
      }
      removed := runner in runners;
      runners := RemoveFirst(runners, runner);
    }

    // ----------------------------------------------------- liveness sweep

    /** One sweep of `runner_checker`: ping the runners and evict each one whose
        answer is not "pong" or whose ping raised a socket error. The pool is
        walked by index while it shrinks, as Python's list iterator does, so the
        runner after an evicted one is not pinged in this sweep: the runners
        pinged and the pool left are those of `Walk`. A port that `int()`
        rejects raises ValueError, which nothing catches: the sweep stops there
        with `raised`. `pings[k]` answers the k-th ping. */
    method CheckRunners(pings: seq<Reply>)
      returns (probed: seq<Runner>, evicted: seq<Runner>, recovered: seq<string>, raised: bool,
               ghost owners: seq<Runner>)
      requires Valid() && |runners| <= |pings|
      modifies this
      ensures Valid() && stored == old(stored)
      ensures Walk(old(runners), pings, 0) == SweepRun(probed, runners, raised)
      ensures |probed| <= |old(runners)| && evicted == Evicted(probed, pings)
      ensures multiset(runners) + multiset(evicted) == multiset(old(runners))
      ensures multiset(Kept(probed, pings)) <= multiset(runners)
      ensures Subseq(runners, old(runners))
      ensures Ledger(old(pending), old(dispatched), old(Tracked()), pending, dispatched, recovered, owners, evicted)
      ensures forall r :: r in evicted && Held(old(dispatched), r) ==> Recovers(old(dispatched), recovered, r)
      ensures Tracked() == old(Tracked())
    {
      probed, evicted, recovered, raised, owners := [], [], [], false, [];
      ghost var start, pending0, dispatched0, tracked0 := runners, pending, dispatched, Tracked();
      var i := 0;
      SubseqRefl(runners);
      assert [] + Walk(start, pings, 0).probed == Walk(start, pings, 0).probed;
      while i < |runners|
        invariant i == |probed| && !raised
        invariant Valid() && stored == old(stored)
        invariant Sweep(start, pings, pending0, dispatched0, tracked0,
                        runners, pending, dispatched, probed, evicted, recovered, owners)
        decreases |runners| - i
      {
        var r := runners[i];
        if PyInt(r.port).None? {
          raised := true;
          break;
        }
        if Alive(pings[i]) {
          SweepPasses(start, pings, pending0, dispatched0, tracked0,
                      runners, pending, dispatched, probed, evicted, recovered, owners);
          probed := probed + [r];
        } else {
          ghost var pool, waiting, held := runners, pending, dispatched;
          var moved, _ := Evict(r);
          SweepFails(start, pings, pending0, dispatched0, tracked0,
                     pool, waiting, held, probed, evicted, recovered, owners, moved, pending, dispatched);
          probed, evicted := probed + [r], evicted + [r];
          if moved.Some? {
            recovered, owners := recovered + [moved.value], owners + [r];
          }
        }
        i := i + 1;
      }
      SweepDone(start, pings, pending0, dispatched0, tracked0,
                runners, pending, dispatched, probed, evicted, recovered, owners);
      SweepKeptBound(old(runners), runners, probed, evicted, pings, i);
    }

    // ------------------------------------------------------- redistribution

    /** One turn of `redistribute`'s for loop, at position i of the waiting
        list: one pass of `dispatch_tests` for the commit there, with the
        runners' replies `round`. A commit that is taken leaves the list. */
    method TryWaiting(i: nat, round: seq<Reply>) returns (c: string, o: PassOutcome)
      requires Valid() && i < |pending| && |runners| <= |round|
      modifies this
      ensures Valid() && runners == old(runners) && stored == old(stored)
      ensures c == old(pending)[i] && c !in old(dispatched) && o == FirstTaker(Offers(runners, round))
      ensures o.Assigned? ==>
                o.index < |runners| &&
                pending == old(pending)[..i] + old(pending)[i + 1..] &&
                dispatched == old(dispatched)[c := runners[o.index]]
      ensures !o.Assigned? ==> pending == old(pending) && dispatched == old(dispatched)
      ensures Tracked() == old(Tracked())
    {
      c := pending[i];
      RemoveFirstAt(pending, i);
      o := DispatchTests(c, round);
    }

    /** One pass of `redistribute`'s loop over the waiting commits, each given one
        pass of `dispatch_tests` with the runners' replies `rounds[k]`. The list
        is walked by index while dispatched commits leave it, so after each
        success the next waiting commit is skipped: the commits tried are those at
        even positions. A pass that ends without a taker halts the sweep, since
        `dispatch_tests` would go on retrying that commit (or has raised). */
    method Redistribute(rounds: seq<seq<Reply>>) returns (placed: seq<string>, halted: Option<PassOutcome>)
      requires Valid() && |pending| <= |rounds|
      requires forall k :: 0 <= k < |rounds| ==> |runners| <= |rounds[k]|
      modifies this
      ensures Valid() && runners == old(runners) && stored == old(stored)
      ensures Skipped(old(pending), pending, placed)
      ensures Placements(old(dispatched), runners, Verdicts(runners, rounds), placed, dispatched)
      ensures Tracked() == old(Tracked())
      ensures halted == None <==> 2 * |placed| >= |old(pending)|
      ensures halted.Some? ==>
                2 * |placed| < |old(pending)| && !halted.value.Assigned? &&
                halted.value == FirstTaker(Offers(runners, rounds[|placed|]))
    {
      placed, halted := [], None;
      ghost var pending0, dispatched0, tracked0 := pending, dispatched, Tracked();
      ghost var verdicts := Verdicts(runners, rounds);
      var i := 0;
      while i < |pending|
        invariant i == |placed|
        invariant Valid() && runners == old(runners) && stored == old(stored)
        invariant Skipped(pending0, pending, placed)
        invariant Placements(dispatched0, runners, verdicts, placed, dispatched)
        invariant Tracked() == tracked0
      {
        ghost var waiting, held := pending, dispatched;
        var c, o := TryWaiting(i, rounds[i]);
        if !o.Assigned? {
          halted := Some(o);
          return;
        }
        SkippedStep(pending0, waiting, placed);
        assert verdicts[i] == o;
        PlacementsStep(dispatched0, runners, verdicts, placed, held, c, o.index);
        placed := placed + [c];
        i := i + 1;
      }
    }
  }
}

=== FILE: protocol.dfy ===
/** The text side of the dispatcher's request handling (ci/code/dispatcher.py):
    Python 2's `str.strip`, the command-header regular expression `(\w+)(:.+)*`,
    `str.split` and `str.join`, `int()`, the field layout of `register` and
    `results` messages, the receive-buffer arithmetic and the stored payload. */
module Protocol {
  import opened Wrappers
  import opened Sequences

  /** The exceptions a request handler can die of. */
  datatype PyError = TypeError | ValueError | IndexError | KeyError

  /** A test runner as the dispatcher records it: both parts stay strings. */
  datatype Runner = Runner(host: string, port: string)

  // ---------------------------------------------------------------- characters

  /** Whitespace as Python 2's `str.strip` and `int()` see it. */
  predicate IsSpace(c: char)
  {
    c == ' ' || c == '\t' || c == '\n' || c == '\r' || c == '\U{000B}' || c == '\U{000C}'
  }

  /** `\w` of a byte-string pattern: ASCII letters, digits and underscore. */
  predicate IsWordChar(c: char)
  {
    ('a' <= c <= 'z') || ('A' <= c <= 'Z') || ('0' <= c <= '9') || c == '_'
  }

  predicate IsDigit(c: char)
  {
    '0' <= c <= '9'
  }

  predicate AllDigits(s: string)
  {
    forall k :: 0 <= k < |s| ==> IsDigit(s[k])
  }

  /** Length of the leading run of whitespace. */
  function LeadingSpace(s: string): (n: nat)
    ensures n <= |s|
    ensures forall k :: 0 <= k < n ==> IsSpace(s[k])
    ensures n < |s| ==> !IsSpace(s[n])
  {
    if s == [] || !IsSpace(s[0]) then 0 else 1 + LeadingSpace(s[1..])
  }

  /** Length of the trailing run of whitespace. */
  function TrailingSpace(s: string): (n: nat)
    ensures n <= |s|
    ensures forall k :: |s| - n <= k < |s| ==> IsSpace(s[k])
    ensures n < |s| ==> !IsSpace(s[|s| - 1 - n])
  {
    if s == [] || !IsSpace(s[|s| - 1]) then 0 else 1 + TrailingSpace(s[..|s| - 1])
  }

  /** Length of the leading run of word characters: what group 1 matches. */
  function LeadingWord(s: string): (n: nat)
    ensures n <= |s|
    ensures forall k :: 0 <= k < n ==> IsWordChar(s[k])
    ensures n < |s| ==> !IsWordChar(s[n])
  {
    if s == [] || !IsWordChar(s[0]) then 0 else 1 + LeadingWord(s[1..])
  }

  /** `s.strip()`: s without its leading and trailing whitespace. */
  function Strip(s: string): (r: string)
    ensures var i := LeadingSpace(s);
            i + |r| <= |s| && r == s[i..i + |r|] &&
            (forall k :: 0 <= k < |s| && !(i <= k < i + |r|) ==> IsSpace(s[k]))
    ensures r != [] ==> !IsSpace(r[0]) && !IsSpace(r[|r| - 1])
  {
    var i := LeadingSpace(s);
    var j := TrailingSpace(s[i..]);
    s[i..|s| - j]
  }

  /** Stripping a string that neither starts nor ends with whitespace changes nothing. */
  lemma StripTrimmed(s: string)
    requires s != [] ==> !IsSpace(s[0]) && !IsSpace(s[|s| - 1])
    ensures Strip(s) == s
  {
    var r := Strip(s);
    var i := LeadingSpace(s);
    if s != [] {
      assert i == 0;
    }
  }

  // ------------------------------------------------------------ command header

  /** The verbs `handle` knows. */
  datatype Verb = Status | Register | Dispatch | Results

  function VerbName(v: Verb): string
  {
    match v
    case Status => "status"
    case Register => "register"
    case Dispatch => "dispatch"
    case Results => "results"
  }

  /** Looks a word up in the handler table. */
  function VerbOf(word: string): (r: Option<Verb>)
    ensures r.Some? ==> VerbName(r.value) == word
    ensures r.None? ==> forall v :: VerbName(v) != word
  {
    if word == "status" then Some(Status)
    else if word == "register" then Some(Register)
    else if word == "dispatch" then Some(Dispatch)
    else if word == "results" then Some(Results)
    else None
  }

  /** What `handle` makes of a (stripped) frame. */
  datatype Header =
    | NoMatch                          // the pattern does not match: "Invalid command"
    | UnknownVerb(word: string)        // not in the handler table: "Invalid Command"
    | NoMessage(verb: Verb)            // group(2) is None, so slicing it raises TypeError
    | Request(verb: Verb, message: string)

  /** `command_re.match(data)` followed by the table lookup and `group(2)[1:]`.
      Group 1 is the longest run of word characters at the start. Group 2 is
      present when a ':' follows the word and at least one character other than
      a newline follows the ':'; `.+` then runs to the end of that line, and the
      message is the line after the ':'. */
  function Parse(data: string): (h: Header)
    ensures h.NoMatch? <==> data == [] || !IsWordChar(data[0])
  {
    var w := LeadingWord(data);
    if w == 0 then NoMatch
    else
      var word := data[..w];
      match VerbOf(word)
      case None => UnknownVerb(word)
      case Some(v) =>
        match Group2(data[w..])
        case None => NoMessage(v)
        case Some(message) => Request(v, message)
  }

  /** A word that is not a verb is reported with the whole of group 1. */
  lemma ParseUnknownVerb(data: string)
    ensures var h := Parse(data);
            h.UnknownVerb? ==>
              0 < |h.word| <= |data| && h.word == data[..|h.word|] &&
              (forall k :: 0 <= k < |h.word| ==> IsWordChar(h.word[k])) &&
              (|h.word| < |data| ==> !IsWordChar(data[|h.word|])) &&
              forall v :: VerbName(v) != h.word
  {
  }

  /** A verb without group 2: nothing, or only a ':' and the end of the line,
      follows it. */
  lemma ParseNoMessage(data: string)
    ensures var h := Parse(data);
            h.NoMessage? ==>
              var n := |VerbName(h.verb)|;
              n <= |data| && data[..n] == VerbName(h.verb) &&
              (n < |data| ==> !IsWordChar(data[n])) &&
              !(n + 1 < |data| && data[n] == ':' && data[n + 1] != '\n')
  {
  }

  /** A request: the verb, a ':' and the message, which runs to the end of
      the first line. */
  lemma ParseRequestShape(data: string)
    ensures var h := Parse(data);
            h.Request? ==>
              var m := |VerbName(h.verb)| + 1 + |h.message|;
              m <= |data| && data[..m] == VerbName(h.verb) + ":" + h.message &&
              h.message != [] && '\n' !in h.message &&
              (m < |data| ==> data[m] == '\n')
  {
    var h := Parse(data);
    if h.Request? {
      var w := LeadingWord(data);
      var word, rest := data[..w], data[w..];
      assert VerbOf(word) == Some(h.verb) && Group2(rest) == Some(h.message);
      assert |word| == |VerbName(h.verb)|;
      assert data == word + rest;
      assert data[..w + 1 + |h.message|] == word + rest[..1 + |h.message|];
    }
  }

  /** Group 2 of the header pattern, read on the text after the verb: a ':'
      followed by the rest of the line, present only when that rest is not
      empty. The message is the part after the ':'. */
  function Group2(rest: string): (m: Option<string>)
    ensures m.Some? <==> 1 < |rest| && rest[0] == ':' && rest[1] != '\n'
    ensures m.Some? ==>
              var k := 1 + |m.value|;
              k <= |rest| && rest[..k] == ":" + m.value &&
              m.value != [] && '\n' !in m.value &&
              (k < |rest| ==> rest[k] == '\n')
  {
    var i := FirstIndex(rest, '\n');
    if 1 < |rest| && rest[0] == ':' && rest[1] != '\n' then
      assert 2 <= i;
      var message := rest[1..i];
      assert rest[..i] == ":" + message;
      assert forall k :: 0 <= k < |message| ==> message[k] == rest[..i][k + 1];
      Some(message)
    else None
  }

  /** The converse of Parse's contract for requests: a known verb, a ':' and a
      one-line non-empty message, followed by nothing or by a new line, is
      parsed into exactly that verb and message. */
  lemma ParseRequest(v: Verb, message: string, tail: string)
    requires message != [] && '\n' !in message
    requires tail == [] || tail[0] == '\n'
    ensures Parse(VerbName(v) + ":" + message + tail) == Request(v, message)
  {
    var name := VerbName(v);
    var rest := ":" + message + tail;
    var data := name + rest;
    assert data == VerbName(v) + ":" + message + tail;
    WordPrefix(name, rest);
    assert data[..|name|] == name && data[|name|..] == rest;
    assert VerbOf(name) == Some(v);
    Group2Of(message, tail);
  }

  /** Group 2 of ":" + message + tail, where the line ends with the message,
      yields exactly the message. */
  lemma Group2Of(message: string, tail: string)
    requires message != [] && '\n' !in message
    requires tail == [] || tail[0] == '\n'
    ensures Group2(":" + message + tail) == Some(message)
  {
    var rest := ":" + message + tail;
    FirstLine(message, tail);
    assert rest[1] == message[0];
    assert rest[1..1 + |message|] == message;
  }

  /** A run of word characters followed by a non-word character is the match
      of group 1. */
  lemma WordPrefix(word: string, rest: string)
    requires forall k :: 0 <= k < |word| ==> IsWordChar(word[k])
    requires rest != [] && !IsWordChar(rest[0])
    ensures LeadingWord(word + rest) == |word|
  {
    var data := word + rest;
    assert forall k :: 0 <= k < |word| ==> data[k] == word[k];
    assert data[|word|] == rest[0];
  }

  /** The first line of ":" + message + tail ends where the message does. */
  lemma FirstLine(message: string, tail: string)
    requires '\n' !in message
    requires tail == [] || tail[0] == '\n'
    ensures var rest := ":" + message + tail;
            FirstIndex(rest, '\n') == 1 + |message| && rest[..1 + |message|] == ":" + message
  {
    var rest := ":" + message + tail;
    forall k | 0 <= k < 1 + |message|
      ensures rest[k] != '\n'
    {
      if k > 0 {
        assert rest[k] == message[k - 1];
      }
    }
    assert rest[1 + |message|..] == tail;
    assert rest[..1 + |message|] == ":" + message;
  }

  // ----------------------------------------------------------- split and join

  /** `sep.join(parts)`: empty for no parts; otherwise it starts with the
      first part, followed by the separator when more parts follow. */
  function Join(sep: string, parts: seq<string>): (r: string)
    ensures parts == [] ==> r == ""
    ensures parts != [] ==> parts[0] <= r
    ensures |parts| > 1 ==> parts[0] + sep <= r
  {
    if parts == [] then ""
    else if |parts| == 1 then parts[0]
    else parts[0] + sep + Join(sep, parts[1..])
  }

  /** `s.split(d)`: the pieces between the occurrences of d. */
  function Split(s: string, d: char): (parts: seq<string>)
    ensures parts != []
    ensures forall k :: 0 <= k < |parts| ==> d !in parts[k]
    decreases |s|
  {
    var i := FirstIndex(s, d);
    if i == |s| then [s]
    else
      var rest := Split(s[i + 1..], d);
      assert ([s[..i]] + rest)[1..] == rest;
      [s[..i]] + rest
  }

  /** There is one more piece than there are occurrences of d. */
  lemma {:induction false} SplitCount(s: string, d: char)
    ensures |Split(s, d)| == multiset(s)[d] + 1
    decreases |s|
  {
    var i := FirstIndex(s, d);
    if i == |s| {
      assert d !in s;
    } else {
      SplitCount(s[i + 1..], d);
      assert s == s[..i] + [d] + s[i + 1..];
    }
  }

  /** Joining the pieces back with d gives s again. */
  lemma {:induction false} SplitJoin(s: string, d: char)
    ensures Join([d], Split(s, d)) == s
    decreases |s|
  {
    var i := FirstIndex(s, d);
    if i < |s| {
      var rest := Split(s[i + 1..], d);
      SplitJoin(s[i + 1..], d);
      assert ([s[..i]] + rest)[1..] == rest;
      assert s == s[..i] + [d] + s[i + 1..];
    }
  }

  /** A first field without the delimiter is split off on its own. */
  lemma SplitField(a: string, d: char, b: string)
    requires d !in a
    ensures Split(a + [d] + b, d)[0] == a
    ensures Split(a + [d] + b, d)[1..] == Split(b, d)
  {
    var s := a + [d] + b;
    assert s[|a|] == d;
    assert forall k :: 0 <= k < |a| ==> s[k] == a[k];
    var i := FirstIndex(s, d);
    assert i == |a|;
    assert s[..i] == a && s[i + 1..] == b;
  }

  /** A string without the delimiter is a single field. */
  lemma SplitWhole(s: string, d: char)
    requires d !in s
    ensures Split(s, d) == [s]
  {
    assert FirstIndex(s, d) == |s|;
  }

  /** s with every d replaced by e. */
  function Replace(s: string, d: char, e: char): string
  {
    seq(|s|, k requires 0 <= k < |s| => if s[k] == d then e else s[k])
  }

  lemma ReplaceAppend(a: string, b: string, d: char, e: char)
    ensures Replace(a + b, d, e) == Replace(a, d, e) + Replace(b, d, e)
  {
  }

  lemma ReplaceAbsent(s: string, d: char, e: char)
    requires d !in s
    ensures Replace(s, d, e) == s
  {
  }

  /** Splitting at d and joining with e replaces every d by e. */
  lemma {:induction false} JoinSplit(s: string, d: char, e: char)
    ensures Join([e], Split(s, d)) == Replace(s, d, e)
    decreases |s|
  {
    var i := FirstIndex(s, d);
    if i == |s| {
      assert d !in s;
      ReplaceAbsent(s, d, e);
    } else {
      var a, b := s[..i], s[i + 1..];
      JoinSplit(b, d, e);
      var rest, parts := Split(b, d), Split(s, d);
      assert parts[0] == a && parts[1..] == rest;
      assert Join([e], parts) == a + [e] + Join([e], rest);
      assert s == a + [d] + b;
      ReplaceAppend(a + [d], b, d, e);
      ReplaceAppend(a, [d], d, e);
      ReplaceAbsent(a, d, e);
      assert Replace([d], d, e) == [e];
    }
  }

  // ---------------------------------------------------------------- integers

  /** Value of a string of decimal digits. */
  function DigitsValue(s: string): nat
    requires AllDigits(s)
    decreases |s|
  {
    if s == [] then 0
    else 10 * DigitsValue(s[..|s| - 1]) + (s[|s| - 1] as int - '0' as int)
  }

  /** What `int()` reads after a sign: Python 2 skips whitespace again, then
      needs at least one digit and nothing else. */
  function AfterSign(u: string): (r: Option<nat>)
    ensures r.Some? ==> u != [] && IsDigit(u[|u| - 1])
  {
    var digits := u[LeadingSpace(u)..];
    if digits != [] && AllDigits(digits) then
      assert u[|u| - 1] == digits[|digits| - 1];
      Some(DigitsValue(digits))
    else None
  }

  /** A stripped numeral: an optional sign, whitespace again after the sign
      (Python 2 skips it), then at least one digit. */
  function Numeral(t: string): (r: Option<int>)
    ensures r.Some? ==> t != [] && IsDigit(t[|t| - 1])
    ensures r.Some? && r.value < 0 ==> t[0] == '-'
  {
    if t != [] && (t[0] == '-' || t[0] == '+') then
      match AfterSign(t[1..])
      case None => None
      case Some(n) =>
        assert t[1..][|t| - 2] == t[|t| - 1];
        var value: int := n;
        Some(if t[0] == '-' then -value else value)
    else if t != [] && AllDigits(t) then Some(DigitsValue(t))
    else None
  }

  /** `int(s)` in base 10 on a Python 2 byte string: the numeral between the
      surrounding whitespace; anything else raises ValueError (None here). */
  function PyInt(s: string): (r: Option<int>)
    ensures r.Some? ==> var t := Strip(s); t != [] && IsDigit(t[|t| - 1])
    ensures r.Some? && r.value < 0 ==> Strip(s)[0] == '-'
  {
    Numeral(Strip(s))
  }

  /** A leading run of whitespace followed by a non-space is what LeadingSpace measures. */
  lemma SpacePrefix(gap: string, rest: string)
    requires forall k :: 0 <= k < |gap| ==> IsSpace(gap[k])
    requires rest != [] && !IsSpace(rest[0])
    ensures LeadingSpace(gap + rest) == |gap|
  {
    var s := gap + rest;
    assert forall k :: 0 <= k < |gap| ==> s[k] == gap[k];
    assert s[|gap|] == rest[0];
  }

  /** Whitespace and then digits read as the digits' value. */
  lemma AfterSignOf(gap: string, digits: string)
    requires forall k :: 0 <= k < |gap| ==> IsSpace(gap[k])
    requires digits != [] && AllDigits(digits)
    ensures AfterSign(gap + digits) == Some(DigitsValue(digits))
  {
    SpacePrefix(gap, digits);
    assert (gap + digits)[|gap|..] == digits;
  }

  /** A sign, any whitespace and a run of digits read as the signed value, as
      Python 2's `int()` skips whitespace again after the sign. */
  lemma PyIntSigned(sign: char, gap: string, digits: string)
    requires sign == '-' || sign == '+'
    requires forall k :: 0 <= k < |gap| ==> IsSpace(gap[k])
    requires digits != [] && AllDigits(digits)
    ensures PyInt([sign] + gap + digits)
            == Some(if sign == '-' then -(DigitsValue(digits) as int) else DigitsValue(digits))
  {
    var s := [sign] + gap + digits;
    assert s[0] == sign && s[|s| - 1] == digits[|digits| - 1];
    PyIntTrimmed(s);
    NumeralSigned(sign, gap, digits);
  }

  /** The same on the stripped numeral. */
  lemma NumeralSigned(sign: char, gap: string, digits: string)
    requires sign == '-' || sign == '+'
    requires forall k :: 0 <= k < |gap| ==> IsSpace(gap[k])
    requires digits != [] && AllDigits(digits)
    ensures Numeral([sign] + gap + digits)
            == Some(if sign == '-' then -(DigitsValue(digits) as int) else DigitsValue(digits))
  {
    var s := [sign] + gap + digits;
    assert s[0] == sign && s[1..] == gap + digits;
    AfterSignOf(gap, digits);
  }

  /** The converse of NumeralSigned: a signed numeral that reads is the
      sign, whitespace and a run of digits, and reads as their signed value. */
  lemma NumeralShapeSigned(t: string)
    requires t != [] && (t[0] == '-' || t[0] == '+') && Numeral(t).Some?
    ensures var digits := t[1 + LeadingSpace(t[1..])..];
            (forall k :: 1 <= k <= LeadingSpace(t[1..]) ==> IsSpace(t[k])) &&
            digits != [] && AllDigits(digits) &&
            Numeral(t) == Some(if t[0] == '-' then -(DigitsValue(digits) as int) else DigitsValue(digits))
  {
    var u := t[1..];
    var n := LeadingSpace(u);
    var digits := u[n..];
    assert t[1 + n..] == digits;
    assert AfterSign(u) == Some(DigitsValue(digits));
    forall k | 1 <= k <= n
      ensures IsSpace(t[k])
    {
      assert t[k] == u[k - 1];
    }
  }

  /** The converse of PyIntSigned and PyIntDecimal: whatever `int()` accepts
      is, between the surrounding whitespace, either a plain run of digits or
      a sign, whitespace and a run of digits (NumeralShapeSigned gives its
      value). */
  lemma PyIntShape(s: string)
    requires PyInt(s).Some?
    ensures var t := Strip(s);
            t != [] && PyInt(s) == Numeral(t) &&
            if t[0] == '-' || t[0] == '+' then
              var digits := t[1 + LeadingSpace(t[1..])..];
              digits != [] && AllDigits(digits)
            else
              AllDigits(t) && PyInt(s) == Some(DigitsValue(t))
  {
    var t := Strip(s);
    assert PyInt(s) == Numeral(t);
    if t[0] == '-' || t[0] == '+' {
      NumeralShapeSigned(t);
    }
  }

  /** Text without whitespace at either end is read as a numeral as it stands. */
  lemma PyIntTrimmed(s: string)
    requires s != [] && !IsSpace(s[0]) && !IsSpace(s[|s| - 1])
    ensures PyInt(s) == Numeral(s)
  {
    StripTrimmed(s);
  }

  /** `str(n)` for a natural number: its decimal digits. */
  function NatDecimal(n: nat): (s: string)
    ensures s != [] && AllDigits(s)
    ensures DigitsValue(s) == n
  {
    var digit := ['0' + (n % 10) as char];
    if n < 10 then digit
    else
      var s := NatDecimal(n / 10) + digit;
      assert s[..|s| - 1] == NatDecimal(n / 10);
      s
  }

  /** `str(n)`. */
  function Decimal(n: int): string
  {
    if n < 0 then "-" + NatDecimal(-n) else NatDecimal(n)
  }

  /** `int(str(n)) == n`. */
  lemma PyIntDecimal(n: int)
    ensures PyInt(Decimal(n)) == Some(n)
  {
    var s := Decimal(n);
    assert !IsSpace(s[0]) && !IsSpace(s[|s| - 1]);
    PyIntTrimmed(s);
    if n < 0 {
      assert s == ['-'] + [] + NatDecimal(-n);
      NumeralSigned('-', [], NatDecimal(-n));
    }
  }

  /** A decimal numeral has no ':' in it. */
  lemma DecimalHasNoColon(n: int)
    ensures ':' !in Decimal(n)
  {
  }

  // ------------------------------------------------------- register messages

  /** `host, port = message.split(':')`: exactly two fields, or ValueError (None). */
  function ParseRunner(message: string): (r: Option<Runner>)
    ensures r.Some? <==> multiset(message)[':'] == 1
    ensures r.Some? ==> message == r.value.host + ":" + r.value.port &&
                        ':' !in r.value.host && ':' !in r.value.port
  {
    var fields := Split(message, ':');
    SplitCount(message, ':');
    if |fields| == 2 then
      SplitJoin(message, ':');
      assert Join([':'], fields) == fields[0] + ":" + fields[1];
      Some(Runner(fields[0], fields[1]))
    else None
  }

  /** The message a runner sends to register is read back as that runner. */
  lemma ParseRunnerOf(host: string, port: string)
    requires ':' !in host && ':' !in port
    ensures ParseRunner(host + ":" + port) == Some(Runner(host, port))
  {
    SplitField(host, ':', port);
    SplitWhole(port, ':');
  }

  // -------------------------------------------------------- results messages

  /** The first two fields of a `results` message and the length they announce. */
  datatype ResultsHeader = ResultsHeader(commitId: string, lengthField: string, length: int)

  /** `results = message.split(":")`, `results[0]` and `int(results[1])`: fewer than
      two fields raise IndexError, a length that is not a number ValueError. */
  function ParseResults(message: string): (r: Result<ResultsHeader, PyError>)
    ensures r.Failure? ==> r.error == IndexError || r.error == ValueError
    ensures r == Failure(IndexError) <==> ':' !in message
    ensures r.Success? ==>
              var h := r.value;
              var n := |h.commitId| + 1 + |h.lengthField|;
              ':' !in h.commitId && ':' !in h.lengthField &&
              n <= |message| && message[..n] == h.commitId + ":" + h.lengthField &&
              (n < |message| ==> message[n] == ':') &&
              PyInt(h.lengthField) == Some(h.length)
  {
    var fields := Split(message, ':');
    SplitCount(message, ':');
    if |fields| < 2 then
      assert multiset(message)[':'] == 0;
      Failure(IndexError)
    else
      match PyInt(fields[1])
      case None => Failure(ValueError)
      case Some(length) =>
        SplitPrefix(message);
        Success(ResultsHeader(fields[0], fields[1], length))
  }

  /** Where the first two fields of a split sit in the original string. */
  lemma SplitPrefix(s: string)
    requires ':' in s
    ensures var fields := Split(s, ':');
            var n := |fields[0]| + 1 + |fields[1]|;
            |fields| >= 2 && n <= |s| && s[..n] == fields[0] + [':'] + fields[1] &&
            (n < |s| ==> s[n] == ':')
  {
    var i := FirstIndex(s, ':');
    var rest := s[i + 1..];
    var j := FirstIndex(rest, ':');
    assert Split(s, ':')[0] == s[..i] && Split(s, ':')[1] == Split(rest, ':')[0] == rest[..j];
    SliceAround(s, i, j);
  }

  /** The text up to the second field's end is the first field, the
      delimiter and the second field. */
  lemma SliceAround(s: string, i: nat, j: nat)
    requires i < |s| && i + 1 + j <= |s|
    ensures s[..i + 1 + j] == s[..i] + [s[i]] + s[i + 1..][..j]
    ensures i + 1 + j < |s| ==> s[i + 1 + j] == s[i + 1..][j]
  {
    var n := i + 1 + j;
    assert s[..n] == s[..i] + [s[i]] + s[i + 1..n];
  }

  /** The converse of ParseResults for every header: a colon-free commit id and
      a colon-free length field, followed by the end of the message or a ':',
      give that header when the field is a number and ValueError when it is not. */
  lemma ParseResultsFields(commitId: string, lengthField: string, tail: string)
    requires ':' !in commitId && ':' !in lengthField
    requires tail == [] || tail[0] == ':'
    ensures ParseResults(commitId + ":" + lengthField + tail)
            == match PyInt(lengthField)
               case None => Failure(ValueError)
               case Some(n) => Success(ResultsHeader(commitId, lengthField, n))
  {
    var rest := lengthField + tail;
    assert commitId + ":" + lengthField + tail == commitId + [':'] + rest;
    SplitField(commitId, ':', rest);
    if tail == [] {
      assert rest == lengthField;
      SplitWhole(lengthField, ':');
    } else {
      assert rest == lengthField + [':'] + tail[1..];
      SplitField(lengthField, ':', tail[1..]);
    }
  }

  /** The header a runner's report carries is read back as sent. */
  lemma ParseResultsOf(commitId: string, length: int, payload: string)
    requires ':' !in commitId
    ensures ParseResults(commitId + ":" + Decimal(length) + ":" + payload)
            == Success(ResultsHeader(commitId, Decimal(length), length))
  {
    DecimalHasNoColon(length);
    PyIntDecimal(length);
    assert commitId + ":" + Decimal(length) + ":" + payload
        == commitId + ":" + Decimal(length) + (":" + payload);
    ParseResultsFields(commitId, Decimal(length), ":" + payload);
  }

  /** BUF_SIZE: the size of the first read of every request. */
  const BufSize: int := 1024

  /** How many more bytes `results_handler` asks the socket for: the announced
      payload length minus the room the first read had left after the command,
      the commit id, the length field and the three ':'. Zero: no second read. */
  function ExtraRequest(command: string, h: ResultsHeader): (n: nat)
    ensures n == 0 <==> |command| + |h.commitId| + |h.lengthField| + 3 + h.length <= BufSize
    ensures n > 0 ==> |command| + |h.commitId| + |h.lengthField| + 3 + h.length == BufSize + n
  {
    var remaining := BufSize - (|command| + |h.commitId| + |h.lengthField| + 3);
    if h.length > remaining then h.length - remaining else 0
  }

  /** When the announced length is the true payload length, the second read asks
      for exactly the bytes of the frame that did not fit in the first read. */
  lemma ExtraRequestCoversFrame(command: string, commitId: string, lengthField: string, payload: string)
    ensures var frame := Report(command, commitId, lengthField, payload);
            ExtraRequest(command, ResultsHeader(commitId, lengthField, |payload|))
            == if |frame| > BufSize then |frame| - BufSize else 0
  {
  }

  /** The frame after the follow-up read: the first read is kept as it was;
      only when the header announced more bytes than fitted in it are more
      taken, namely what `recv` returned, without surrounding whitespace. */
  function FullFrame(data: string, command: string, h: ResultsHeader, received: string): (f: string)
    ensures data <= f && |f| <= |data| + |received|
    ensures ExtraRequest(command, h) == 0 ==> f == data
    ensures |f| > |data| ==> !IsSpace(f[|data|]) && !IsSpace(f[|f| - 1])
  {
    if ExtraRequest(command, h) > 0 then data + Strip(received) else data
  }

  /** A report frame longer than the first read, whose two reads neither start
      nor end with whitespace, is put back together exactly: the stripped first
      read followed by the second read is the frame the runner sent. */
  lemma {:induction false} FullFrameReassembles(command: string, commitId: string, lengthField: string, payload: string)
    requires var frame := Report(command, commitId, lengthField, payload);
             |frame| > BufSize && !IsSpace(frame[0]) && !IsSpace(frame[BufSize - 1]) &&
             !IsSpace(frame[BufSize]) && !IsSpace(frame[|frame| - 1])
    ensures var frame := Report(command, commitId, lengthField, payload);
            FullFrame(Strip(frame[..BufSize]), command, ResultsHeader(commitId, lengthField, |payload|),
                      frame[BufSize..]) == frame
  {
    var frame := Report(command, commitId, lengthField, payload);
    var first, second := frame[..BufSize], frame[BufSize..];
    StripTrimmed(first);
    StripTrimmed(second);
    ExtraRequestCoversFrame(command, commitId, lengthField, payload);
    assert first + second == frame;
  }

  /** What is written to `test_results/<commit id>`: the fields of the whole
      frame from the fourth on, joined with new lines. */
  function StoredPayload(data: string): (r: string)
    ensures ':' !in r
    ensures multiset(data)[':'] < 3 ==> r == ""
  {
    var fields := Split(data, ':');
    SplitCount(data, ':');
    var kept := if |fields| <= 3 then [] else fields[3..];
    assert forall k :: 0 <= k < |kept| ==> kept[k] == fields[k + 3];
    JoinAvoids("\n", kept, ':');
    Join("\n", kept)
  }

  /** Joining pieces without d, with a separator without d, gives text without d. */
  lemma {:induction false} JoinAvoids(sep: string, parts: seq<string>, d: char)
    requires d !in sep && forall k :: 0 <= k < |parts| ==> d !in parts[k]
    ensures d !in Join(sep, parts)
    decreases |parts|
  {
    if |parts| > 1 {
      var rest := parts[1..];
      assert forall k :: 0 <= k < |rest| ==> rest[k] == parts[k + 1];
      JoinAvoids(sep, rest, d);
    }
  }

  /** A report frame, `command:commitId:lengthField:payload`. */
  function Report(command: string, commitId: string, lengthField: string, payload: string): (frame: string)
    ensures frame == command + [':'] + (commitId + [':'] + (lengthField + [':'] + payload))
  {
    command + ":" + commitId + ":" + lengthField + ":" + payload
  }

  /** The frame of a well-formed report splits into the command, the commit id,
      the length field and the pieces of the payload. */
  lemma SplitReport(command: string, commitId: string, lengthField: string, payload: string)
    requires ':' !in command && ':' !in commitId && ':' !in lengthField
    ensures var fields := Split(command + [':'] + (commitId + [':'] + (lengthField + [':'] + payload)), ':');
            |fields| >= 3 && fields[0] == command && fields[1] == commitId && fields[2] == lengthField &&
            fields[3..] == Split(payload, ':')
  {
    var tail2 := lengthField + [':'] + payload;
    var tail1 := commitId + [':'] + tail2;
    var fields := Split(command + [':'] + tail1, ':');
    SplitField(command, ':', tail1);
    SplitField(commitId, ':', tail2);
    SplitField(lengthField, ':', payload);
    assert fields[1..][0] == fields[1] && fields[1..][1..] == fields[2..];
    assert fields[2..][0] == fields[2] && fields[2..][1..] == fields[3..];
  }

  /** For a well-formed report the stored text is the payload with every ':'
      turned into a new line. */
  lemma StoredPayloadOf(command: string, commitId: string, lengthField: string, payload: string)
    requires ':' !in command && ':' !in commitId && ':' !in lengthField
    ensures StoredPayload(Report(command, commitId, lengthField, payload)) == Replace(payload, ':', '\n')
  {
    var rest := Split(payload, ':');
    var frame := Report(command, commitId, lengthField, payload);
    SplitReport(command, commitId, lengthField, payload);
    JoinSplit(payload, ':', '\n');
  }

  /** A payload without ':' is stored exactly as sent. */
  lemma StoredPayloadVerbatim(command: string, commitId: string, lengthField: string, payload: string)
    requires ':' !in command && ':' !in commitId && ':' !in lengthField && ':' !in payload
    ensures StoredPayload(Report(command, commitId, lengthField, payload)) == payload
  {
    StoredPayloadOf(command, commitId, lengthField, payload);
    ReplaceAbsent(payload, ':', '\n');
  }
}

=== FILE: sequences.dfy ===
/** Sequence operations the dispatcher's Python lists perform: finding the first
    occurrence of an element and `list.remove`, together with the subsequence
    relation used to say that removals keep the remaining elements in order. */
module Sequences {

  /** Index of the first occurrence of x in s, or |s| when x does not occur. */
  function FirstIndex<T(==)>(s: seq<T>, x: T): (i: nat)
    ensures i <= |s|
    ensures x !in s[..i]
    ensures i < |s| ==> s[i] == x
  {
    if s == [] then 0
    else if s[0] == x then 0
    else
      var i := FirstIndex(s[1..], x);
      assert s[..i + 1] == [s[0]] + s[1..][..i];
      1 + i
  }

  /** Python's `list.remove(x)` on a list known to hold x, and the list unchanged
      otherwise (where Python would raise ValueError). */
  function RemoveFirst<T(==)>(s: seq<T>, x: T): (r: seq<T>)
    ensures x !in s ==> r == s
    ensures x in s ==> |r| == |s| - 1
    ensures x in s ==> multiset(r) == multiset(s) - multiset{x}
  {
    var i := FirstIndex(s, x);
    if i == |s| then s
    else
      assert s == s[..i] + [x] + s[i + 1..];
      s[..i] + s[i + 1..]
  }

  /** The copy `list.remove` takes out is the first one: any j holding x with
      no x before it. */
  lemma RemoveFirstFirst<T>(s: seq<T>, x: T, j: nat)
    requires j < |s| && s[j] == x && x !in s[..j]
    ensures RemoveFirst(s, x) == s[..j] + s[j + 1..]
  {
    var i := FirstIndex(s, x);
    forall k | 0 <= k < j ensures s[k] != x { assert s[..j][k] == s[k]; }
    forall k | 0 <= k < i ensures s[k] != x { assert s[..i][k] == s[k]; }
  }

  /** The elements of s at even positions, in order. */
  function Evens<T>(s: seq<T>): (r: seq<T>)
    ensures |r| == (|s| + 1) / 2
    decreases |s|
  {
    if s == [] then [] else [s[0]] + Odds(s[1..])
  }

  /** The elements of s at odd positions, in order. */
  function Odds<T>(s: seq<T>): (r: seq<T>)
    ensures |r| == |s| / 2
    decreases |s|
  {
    if s == [] then [] else Evens(s[1..])
  }

  /** Position k of `Evens(s)` holds s[2k], and position k of `Odds(s)` holds s[2k + 1]. */
  lemma {:induction false} EvensOddsAt<T>(s: seq<T>, k: nat)
    ensures k < |Evens(s)| ==> Evens(s)[k] == s[2 * k]
    ensures k < |Odds(s)| ==> Odds(s)[k] == s[2 * k + 1]
    decreases |s|
  {
    if s != [] && k > 0 {
      EvensOddsAt(s[1..], k - 1);
      EvensOddsAt(s[1..], k);
    } else if s != [] {
      EvensOddsAt(s[1..], k);
    }
  }

  /** Appending x puts it among the evens after an even-length prefix and
      among the odds after an odd-length one. */
  lemma {:induction false} EvensOddsSnoc<T>(s: seq<T>, x: T)
    ensures |s| % 2 == 0 ==> Evens(s + [x]) == Evens(s) + [x] && Odds(s + [x]) == Odds(s)
    ensures |s| % 2 == 1 ==> Evens(s + [x]) == Evens(s) && Odds(s + [x]) == Odds(s) + [x]
    decreases |s|
  {
    if s != [] {
      EvensOddsSnoc(s[1..], x);
      assert (s + [x])[1..] == s[1..] + [x];
    }
  }

  /** The evens and the odds of s together are a permutation of s. */
  lemma {:induction false} EvensOddsSplit<T>(s: seq<T>)
    ensures multiset(Evens(s)) + multiset(Odds(s)) == multiset(s)
    decreases |s|
  {
    if s != [] {
      EvensOddsSplit(s[1..]);
      assert s == [s[0]] + s[1..];
    }
  }

  /** a can be obtained from b by deleting elements: the elements of a occur in b
      in the same relative order. */
  predicate Subseq<T(==)>(a: seq<T>, b: seq<T>)
    decreases |b|
  {
    if b == [] then a == []
    else Subseq(a, b[1..]) || (a != [] && a[0] == b[0] && Subseq(a[1..], b[1..]))
  }

  lemma {:induction false} SubseqRefl<T>(s: seq<T>)
    ensures Subseq(s, s)
    decreases |s|
  {
    if s != [] {
      SubseqRefl(s[1..]);
    }
  }

  lemma {:induction false} SubseqTrans<T>(a: seq<T>, b: seq<T>, c: seq<T>)
    requires Subseq(a, b) && Subseq(b, c)
    ensures Subseq(a, c)
    decreases |c|
  {
    if c == [] {
    } else if Subseq(b, c[1..]) {
      SubseqTrans(a, b, c[1..]);
    } else {
      assert b != [] && b[0] == c[0] && Subseq(b[1..], c[1..]);
      if Subseq(a, b[1..]) {
        SubseqTrans(a, b[1..], c[1..]);
      } else {
        assert a != [] && a[0] == b[0] && Subseq(a[1..], b[1..]);
        SubseqTrans(a[1..], b[1..], c[1..]);
      }
    }
  }

  /** Appending to the longer sequence keeps a subsequence, and so does
      appending the same element to both. */
  lemma {:induction false} SubseqSnoc<T>(a: seq<T>, b: seq<T>, x: T)
    requires Subseq(a, b)
    ensures Subseq(a, b + [x]) && Subseq(a + [x], b + [x])
    decreases |b|
  {
    if b == [] {
      assert (b + [x])[1..] == [] && (a + [x])[1..] == [];
    } else {
      assert (b + [x])[1..] == b[1..] + [x];
      if Subseq(a, b[1..]) {
        SubseqSnoc(a, b[1..], x);
      } else {
        SubseqSnoc(a[1..], b[1..], x);
        assert (a + [x])[1..] == a[1..] + [x];
      }
    }
  }

  /** Deleting one element from the middle of a sequence leaves a subsequence. */
  lemma {:induction false} SubseqDropOne<T>(a: seq<T>, x: T, b: seq<T>)
    ensures Subseq(a + b, a + [x] + b)
    decreases |a|
  {
    if a == [] {
      assert a + b == b && (a + [x] + b)[1..] == b;
      SubseqRefl(b);
    } else {
      SubseqDropOne(a[1..], x, b);
      assert (a + b)[1..] == a[1..] + b;
      assert (a + [x] + b)[1..] == a[1..] + [x] + b;
    }
  }

  /** `list.remove` keeps the other elements in their original order. */
  lemma RemoveFirstSubseq<T>(s: seq<T>, x: T)
    ensures Subseq(RemoveFirst(s, x), s)
  {
    var i := FirstIndex(s, x);
    if i == |s| {
      SubseqRefl(s);
    } else {
      assert s == s[..i] + [x] + s[i + 1..];
      SubseqDropOne(s[..i], x, s[i + 1..]);
    }
  }

  /** Elements of s from index i on; empty past the end. */
  function From<T>(s: seq<T>, i: nat): seq<T>
  {
    if i <= |s| then s[i..] else []
  }

  /** Removing the first copy of s[i] (which sits at or before i) shifts every
      later element one place to the left. */
  lemma RemoveFirstShift<T>(s: seq<T>, i: nat)
    requires i < |s|
    ensures multiset{s[i]} + multiset(From(RemoveFirst(s, s[i]), i + 1)) <= multiset(From(s, i))
  {
    var j := FirstIndex(s, s[i]);
    assert j <= i;
    var r := RemoveFirst(s, s[i]);
    assert r == s[..j] + s[j + 1..];
    assert s[i..] == [s[i]] + s[i + 1..];
    if i + 1 < |s| {
      assert r[i + 1..] == s[i + 2..];
      assert s[i + 1..] == [s[i + 1]] + s[i + 2..];
    }
  }

  /** No element occurs twice. */
  predicate Distinct<T(==)>(s: seq<T>)
  {
    forall i, j :: 0 <= i < j < |s| ==> s[i] != s[j]
  }

  /** Removing the first `x` keeps every other element and adds none. */
  lemma RemoveFirstMembers<T>(s: seq<T>, x: T)
    ensures forall y :: y in RemoveFirst(s, x) ==> y in s
    ensures forall y :: y in s && y != x ==> y in RemoveFirst(s, x)
  {
    var r := RemoveFirst(s, x);
    forall y | y in r
      ensures y in s
    {
      assert multiset(r)[y] > 0;
    }
    forall y | y in s && y != x
      ensures y in r
    {
      assert multiset(s)[y] > 0;
    }
  }

  /** In a list without repeats, `list.remove(s[i])` takes out exactly index i. */
  lemma RemoveFirstAt<T>(s: seq<T>, i: nat)
    requires Distinct(s) && i < |s|
    ensures RemoveFirst(s, s[i]) == s[..i] + s[i + 1..]
    ensures Distinct(RemoveFirst(s, s[i])) && s[i] !in RemoveFirst(s, s[i])
  {
    var j := FirstIndex(s, s[i]);
    assert j == i;
    var r := s[..i] + s[i + 1..];
    assert forall k :: 0 <= k < |r| ==> r[k] == if k < i then s[k] else s[k + 1];
  }
}

=== FILE: wrappers.dfy ===
/** Option and Result, used for values the dispatcher may fail to produce. */
module Wrappers {

  datatype Option<+T> = None | Some(value: T)

  datatype Result<+T, +E> = Success(value: T) | Failure(error: E)
}
